=== FILE: README.md ===
# Folder walker and package-layout resolver, in Dafny

This project models the two asset-enumeration routines of the zip packager:

- `getFolderEntries` walks a source directory with an explicit work stack. It
  follows symbolic links to classify each child, asks a gitignore-style matcher
  about each child's relative path (with a trailing `/` for directories), prunes
  ignored directories, and yields every kept regular file. A yielded file sits at
  the archive base path (default `/`) joined with its relative path.
- `getPackageEntries` prepares and runs a package-manager install, then
  enumerates the resulting layout:
  - it picks npm, yarn or pnpm from the lockfile's file name;
  - it builds a minimal `package.json` whose dependencies are the requested
    names, taken from the project's manifest;
  - it writes an `.npmrc` when an architecture or platform is given;
  - it refuses a non-zero install exit code;
  - for npm and yarn it walks `node_modules` once;
  - for pnpm it walks the `.pnpm` store and then, for each hoisted alias
    listed in `.modules.yaml`, that alias's store directory again under
    `<base>/<alias>`.

The file system is an immutable tree value (`FileTree.Node`). A symbolic link
holds the node it resolves to. A file's bytes are represented by a `FileId`,
which stands for the lazily opened read stream. The ignore library is a
parameter `lib(patterns, query)` and every property holds for any such
function. Paths are sequences of segments, and an archive path is a `Location`
that records whether it starts at `/`.

Modules:

- `Wrappers`: `Option` and `Result`.
- `Strings`: joining and splitting on a separator, with the round trip.
- `Paths`: segment paths, `Join`, and the matcher's query text.
- `FileTree`: nodes, link resolution and lookup.
- `Folder`: a recursive reference definition of what the walk yields, and its
  properties.
- `Walker`: the work-stack walker itself, proved to yield the same multiset
  as the reference definition.
- `Packages`: the pure parts of `getPackageEntries`, and the whole routine as
  a function producing a `Stream`.
- `Runner`: the routine as a method that runs `Walker.GetFolderEntries` per
  planned walk.

A `Stream` is the generator's observable behaviour: the entries yielded in
order, followed by the error that ended it, if any.

Behaviour of the code that the model keeps:

- With the default base `/`, archive paths of folder walks start with a
  slash (`Location(true, …)`).
- A `.modules.yaml` without `hoistedDependencies` is not an error. The code
  treats it as an empty map, so only the store walk runs.
- The hoisted alias names both the store directory read and the archive
  directory written.
- Files of hoisted packages are yielded twice by design: under the store and
  under the alias.

## Model

| member | source | states |
|---|---|---|
| FileTree.KindOf | src/core/zip/getFolderEntries.ts:29-36 | a child is a directory or a regular file according to what its link resolves to, not the link itself |
| Paths.QueryDeterminesChild | src/core/zip/getFolderEntries.ts:38-42 | the matcher's query tells a directory from a file of the same name, and two different children never share a query |
| Paths.Basename | src/core/zip/getPackageEntries.ts:32 | `basename` of the lockfile path: its last segment, the empty name for an empty path |
| Paths.PathOf | src/core/zip/getPackageEntries.ts:124-134 | how `join` turns a `name@version` or alias string into path segments: every segment is a valid name, a string without empty `/`-parts gives exactly its `/`-split (`@scope/pkg` gives `@scope`, `pkg`), and a plain name gives itself |
| Paths.Query | src/core/zip/getFolderEntries.ts:38-41 | the matcher's query: a directory's query ends in `/` and a file's never does (that it is the relative path's text is QueryIsText) |
| Paths.QueryIsText | src/core/zip/getFolderEntries.ts:38-41 | the query is the relative path's text: with a directory's trailing `/` removed, it splits on `/` back into the path |
| Folder.NodeEntries | src/core/zip/getFolderEntries.ts:29-53 | the reference walk of one child: a kept directory contributes its listing, a kept regular file itself, anything else nothing (characterised by FolderEntriesExactly) |
| Folder.ListEntries | src/core/zip/getFolderEntries.ts:24-54 | the reference walk of a listing, each child at its parent's path plus its name (characterised by FolderEntriesExactly) |
| Folder.FolderEntries | src/core/zip/getFolderEntries.ts:18-24 | the walk fails exactly when the source is missing or not a directory, reporting that source |
| Folder.FolderEntriesBelowBase | src/core/zip/getFolderEntries.ts:49-50 | every yielded path lies strictly below the archive base path |
| Folder.IsArchivedFile | src/core/zip/getFolderEntries.ts:38-52 | the independent characterisation of a yielded entry: a visible regular file below the source, at the base joined with its relative path |
| Folder.FolderEntriesExactly | src/core/zip/getFolderEntries.ts:18-55 | an entry is yielded if and only if it names a regular file below the source, with links followed, that is neither ignored itself nor reached through an ignored directory, placed at the base joined with its relative path |
| Folder.WalkWithoutIgnoresYieldsEveryFile | src/core/zip/getFolderEntries.ts:21-55 | when the matcher ignores nothing, exactly the regular files below the source are yielded, each at its relative path under the base |
| Folder.IgnoredDirectoryIsPruned | src/core/zip/getFolderEntries.ts:42-47 | nothing below an ignored directory is yielded, whatever the matcher says about the descendants |
| Folder.IgnoredFileIsSkipped | src/core/zip/getFolderEntries.ts:42-53 | an ignored file is never yielded |
| Folder.DefaultBaseIsRoot | src/core/zip/getFolderEntries.ts:13-17 | without an archive path, every entry is rooted at `/` and has at least one segment below it |
| Folder.AbsentIgnoreIsEmptyIgnore | src/core/zip/getFolderEntries.ts:19 | an absent ignore list gives the same walk as an empty one |
| Folder.EmptySourceYieldsNothing | src/core/zip/getFolderEntries.ts:21-26 | an empty source directory yields nothing and is not an error |
| Folder.FolderEntriesDistinct | src/core/zip/getFolderEntries.ts:21-55 | on a tree whose listings hold each name once, no archive path is yielded twice |
| Folder.FolderEntriesDistinctText | src/core/zip/getFolderEntries.ts:46-52 | on such a tree, with a base made of valid names, no two entries share the text of their archive path |
| Walker.VisitChild | src/core/zip/getFolderEntries.ts:26-53 | handling one child adds exactly that child's reference entries to what the output and the stack hold, and grows the stack by at most the child's size |
| Walker.VisitListing | src/core/zip/getFolderEntries.ts:24-54 | handling a popped directory's listing adds exactly the listing's reference entries to what the output and the stack hold |
| Walker.WalkListing | src/core/zip/getFolderEntries.ts:18-55 | the work-stack loop terminates and yields exactly the reference entries of the source listing, each as often |
| Walker.GetFolderEntries | src/core/zip/getFolderEntries.ts:13-56 | the walker fails exactly when the reference definition does, otherwise yields the same entries as a multiset, and on a well-formed tree never repeats an archive path |
| Packages.LockKindOf | src/core/zip/getPackageEntries.ts:32-41 | `package-lock.json` selects npm, `yarn.lock` selects yarn, `pnpm-lock.yaml` selects pnpm, and any other file name selects nothing |
| Packages.VersionOf | src/core/zip/getPackageEntries.ts:52-54 | a name's version is its entry in the manifest's `dependencies` when that section exists and the entry is non-empty, else its non-empty `devDependencies` entry; there is none exactly when neither section holds a non-empty entry |
| Packages.SliceDependencies | src/core/zip/getPackageEntries.ts:45-61 | the new dependency map succeeds exactly when every requested name has a version; its keys are the requested names with their versions, and a failure names the first name without one |
| Packages.NpmConfig | src/core/zip/getPackageEntries.ts:63-68 | one line per supplied option, `arch=` first and `platform=` last |
| Packages.NpmrcRoundTrip | src/core/zip/getPackageEntries.ts:63-76 | for single-line option values, `.npmrc` is written exactly when an architecture or platform is supplied, ends in a newline, and splits back into its configuration lines |
| Packages.NpmrcContent | src/core/zip/getPackageEntries.ts:74-76 | the `.npmrc` is written exactly when there is a configuration line; it ends in a newline and, for single-line values, splits back into the lines |
| Packages.InstallCommand | src/core/zip/getPackageEntries.ts:33-38 | the install command per package manager: `npm ci`, `yarn --frozen-lockfile`, `pnpm install --no-frozen-lockfile` (a table; LockKindOf and PrepareInstall tie it to the lockfile name) |
| Packages.ExitCheck | src/core/zip/getPackageEntries.ts:88-96 | enumeration proceeds exactly on exit code 0; any other code, or none, fails with that code |
| Packages.PrepareInstall | src/core/zip/getPackageEntries.ts:29-69 | an unknown lockfile name fails first and an unreadable manifest second; preparation succeeds exactly when the lockfile is known, the manifest was read and every requested name has a version; on success the plan carries the lockfile's kind, its command and basename, the `build` package with exactly the requested dependencies, and the `.npmrc` content |
| Packages.StoreRequest | src/core/zip/getPackageEntries.ts:114-119 | the store walk: source `node_modules/.pnpm`, archive path `<base>/.pnpm` (used by PnpmStartsWithStore and HoistedPaths) |
| Packages.AliasRequest | src/core/zip/getPackageEntries.ts:122-136 | one hoisted walk: source `node_modules/.pnpm/<pkg@ver>/node_modules/<alias>`, archive path `<base>/<alias>` (used by HoistedRequestsExactly and HoistedPaths) |
| Packages.PnpmPlan | src/core/zip/getPackageEntries.ts:112-137 | the pnpm walks: the store walk first, then exactly one walk per hoisted alias, every hoisted alias included; an absent `hoistedDependencies` leaves the store walk alone |
| Packages.FlatPlan | src/core/zip/getPackageEntries.ts:138-144 | the npm and yarn walk: `node_modules` under the archive path (characterised by FlatLayoutIsOneWalk) |
| Packages.HoistedRequests | src/core/zip/getPackageEntries.ts:122-136 | the nested loop over hoisted keys and their aliases, one AliasRequest per alias in key order (characterised by HoistedRequestsExactly) |
| Packages.HoistedRequestsExactly | src/core/zip/getPackageEntries.ts:121-137 | there is one re-rooted walk per hoisted alias, every hoisted alias has its walk, and there is no other walk |
| Packages.RunWalksContains | src/core/zip/getPackageEntries.ts:114-137 | when the stream ended without error, every planned walk succeeded and each of its entries is in the stream |
| Packages.RunWalksFrom | src/core/zip/getPackageEntries.ts:114-137 | every streamed entry comes from a planned walk that succeeded, and so did every walk before it: nothing from a failing walk or a later one reaches the stream, since `yield*` stops at the throw |
| Packages.RunWalks | src/core/zip/getPackageEntries.ts:114-145 | the `yield*` of each planned walk in turn: an error names the source of the first walk that cannot be listed, every walk before it having succeeded (its entries are characterised by RunWalksContains, RunWalksFrom, which rules out entries from the failing walk and later ones, and RunWalksKeepsEarlierWalks) |
| Packages.RunWalksKeepsEarlierWalks | src/core/zip/getPackageEntries.ts:114-137 | entries of walks that succeeded before a failing one stay in the stream, since `yield*` has already yielded them |
| Packages.PackageEntries | src/core/zip/getPackageEntries.ts:20-146 | the whole routine as a stream: nothing is yielded unless preparation succeeded and the install exited with 0, and a stream ends without error only then, with the modules state read for pnpm (the lemmas below characterise each layout) |
| Packages.ConfigurationErrorsPrecedeInstall | src/core/zip/getPackageEntries.ts:32-61 | a configuration error yields nothing, does not depend on the install, reports an unknown lockfile first, and otherwise names the first missing dependency |
| Packages.NonZeroExitFails | src/core/zip/getPackageEntries.ts:88-96 | after preparation, a non-zero or absent exit code ends the stream with that code and nothing yielded, and exit code 0 never does |
| Packages.FlatLayoutIsOneWalk | src/core/zip/getPackageEntries.ts:138-145 | for npm and yarn the stream is exactly one walk of `node_modules` under the archive path, which defaults to `node_modules` |
| Packages.PnpmStartsWithStore | src/core/zip/getPackageEntries.ts:107-119 | for pnpm the stream begins with the whole store under `<base>/.pnpm`, and with no hoisting key it is that walk alone |
| Packages.PnpmStreamIsPlanRun | src/core/zip/getPackageEntries.ts:101-137 | unfolds the stream after a successful pnpm install to the run of PnpmPlan |
| Packages.PlannedWalkYieldsFile | src/core/zip/getPackageEntries.ts:114-145 | with nothing ignored and no error, each file below any planned walk's source is streamed at that walk's archive path |
| Packages.PnpmPlanYieldsTwice | src/core/zip/getPackageEntries.ts:114-137 | with nothing ignored and no error, a hoisted package's file is streamed under the store and under its alias |
| Packages.HoistedFileAppearsTwice | src/core/zip/getPackageEntries.ts:101-137 | for a pnpm install, a file inside a hoisted package appears at `<base>/.pnpm/<pkg@ver>/node_modules/<alias>/…` and at `<base>/<alias>/…` |
| Runner.RunPlan | src/core/zip/getPackageEntries.ts:114-145 | running the walks one after another with the stack walker ends with the reference stream's error and yields its entries, each as often |
| Runner.GetPackageEntries | src/core/zip/getPackageEntries.ts:20-146 | the whole routine ends with the same error as the reference stream and yields the same entries, each as often |

## Left out

- File system calls (`readdir`, `stat`, `readFile`, `writeFile`, `copyFile`) are not performed. The tree after the install is a parameter, and writing the scratch files is represented by the `InstallPlan` value.
- Reading a file's bytes (`createReadStream`) is not modelled. An entry carries a `FileId` standing for the lazily opened stream.
- Broken symbolic links and link cycles cannot be represented, because a link holds its target node. In the code, `stat` throws for a broken link. A directory link to one of its ancestors (`a/up -> ..`) is not detected by the code: `stat` reports a directory and it is pushed, so every file below the ancestor is yielded again under `a/up/…`, `a/up/a/up/…` and so on, until the system's link-depth or path-length limit makes a later `stat` or `readdir` throw. Termination (Walker.WalkListing) and the absence of duplicates (Folder.FolderEntriesDistinct) rest on the tree being acyclic, which the code never checks.
- The ignore library's gitignore semantics are not modelled. It is an arbitrary function of the pattern list and the query text.
- Host path normalisation (`resolve` against the working directory, `.` and `..`, doubled separators) is not modelled. Paths are segment sequences, and `Paths.PathOf` splits a `name@version` or alias string on `/` and drops empty parts.
- JSON and YAML parsing are not modelled. The manifest's sections arrive as string maps, an unreadable manifest or `.modules.yaml` arrives as `None`, and the hoisting map arrives as a sequence in key order. Non-string versions and prototype keys are left out.
- Packages.PrepareInstall: failures of `temporaryDirectory`, `writeFile` and `copyFile` (lines 70-76) are not modelled. A lockfile whose name is recognised but which does not exist on disk makes `copyFile` throw before the install; the model's preparation succeeds and the exit code is consulted next.
- Spawning the install is reduced to its exit code, and `None` stands for a process ended by a signal.
- Console output and colouring are not modelled, because they do not affect the result.
- Error message wording is not modelled. Errors are datatype values carrying the data the messages mention.
- Asynchronous laziness and a consumer stopping early are not modelled. A stream is the full sequence of what would be yielded.
- Races with files that appear or vanish during the walk are not modelled. The tree is immutable, so reading a listing when a directory is pushed gives the same listing as reading it when the directory is popped.
- Walker.GetFolderEntries: the walker's own output order (last pushed directory first) is not stated. Its result is equated with the reference definition as a multiset, and nothing in the system depends on the order.
- Runner.GetPackageEntries: as for the walker, stream entries are compared as multisets, not as sequences.

=== FILE: filetree.dfy ===
/**
  The directory tree the walker reads, as an immutable finite value. A
  symbolic link holds the node it resolves to, so a broken link or a link
  cycle cannot be written down.
 */
module FileTree {
  import opened Wrappers
  import opened Paths

  /** Identity of a file's bytes: what a lazily opened read stream would read. */
  type FileId = nat

  datatype Node =
    | File(id: FileId)
    | Dir(children: seq<Child>)
    | Link(target: Node)
    | Special            // socket, device, FIFO: neither a directory nor a regular file

  /** One entry of a directory listing, as `readdir` returns it. */
  datatype Child = Child(name: Name, node: Node)

  /** What `stat` reports once symbolic links are followed. */
  datatype Kind = Directory | RegularFile | OtherKind

  /** The node a path denotes after following every link on it (what `stat` sees). */
  function Resolve(n: Node): (r: Node)
    ensures !r.Link?
    ensures Size(r) <= Size(n)
  {
    match n
    case Link(t) => Resolve(t)
    case _ => n
  }

  /**
    The type the walker acts on: for a link the type of its target
    (`stat`), otherwise the type `readdir` reports.
   */
  function KindOf(n: Node): (k: Kind)
    ensures k == Directory <==> Resolve(n).Dir?
    ensures k == RegularFile <==> Resolve(n).File?
  {
    match Resolve(n)
    case Dir(_) => Directory
    case File(_) => RegularFile
    case _ => OtherKind
  }

  /** Number of nodes in a tree, counting a link and its target separately. */
  function Size(n: Node): (s: nat)
    ensures s >= 1
  {
    match n
    case Dir(cs) => 1 + SizeOfChildren(cs)
    case Link(t) => 1 + Size(t)
    case _ => 1
  }

  function SizeOfChildren(cs: seq<Child>): nat
  {
    if cs == [] then 0 else Size(cs[0].node) + SizeOfChildren(cs[1..])
  }

  /** The first child called `name`, if any. */
  function Lookup(cs: seq<Child>, name: Name): (r: Option<Node>)
    ensures r.Some? <==> exists i :: 0 <= i < |cs| && cs[i].name == name
  {
    if cs == [] then None
    else if cs[0].name == name then Some(cs[0].node)
    else Lookup(cs[1..], name)
  }

  /**
    The node at relative path `p` below `n`, links followed at every step;
    None when a component is missing or is not a directory.
   */
  function Find(n: Node, p: Path): (r: Option<Node>)
    ensures r.Some? ==> !r.value.Link?
    decreases |p|
  {
    if p == [] then Some(Resolve(n))
    else
      match Resolve(n)
      case Dir(cs) =>
        (match Lookup(cs, p[0])
         case Some(c) => Find(c, p[1..])
         case None => None)
      case _ => None
  }

  /**
    Every directory of the tree lists each name at most once, and every name
    is non-empty and free of `/`, as a real directory listing is.
   */
  predicate WellFormed(n: Node)
  {
    match n
    case Dir(cs) => DistinctNames(cs) && forall i :: 0 <= i < |cs| ==> ValidName(cs[i].name) && WellFormed(cs[i].node)
    case Link(t) => WellFormed(t)
    case _ => true
  }

  predicate DistinctNames(cs: seq<Child>)
  {
    forall i, j :: 0 <= i < j < |cs| ==> cs[i].name != cs[j].name
  }

  /** Looking up a path in two steps is looking it up at once. */
  lemma {:induction false} FindConcat(n: Node, p: Path, q: Path)
    requires Find(n, p).Some?
    ensures Find(n, p + q) == Find(Find(n, p).value, q)
    decreases |p|
  {
    if p == [] {
      assert p + q == q;
      ResolveIdempotent(n);
      if q != [] {
        assert Find(Resolve(n), q) == Find(n, q);
      }
    } else {
      assert (p + q)[0] == p[0];
      assert (p + q)[1..] == p[1..] + q;
      var c := Lookup(Resolve(n).children, p[0]).value;
      FindConcat(c, p[1..], q);
    }
  }

  lemma ResolveIdempotent(n: Node)
    ensures Resolve(Resolve(n)) == Resolve(n)
  {
  }

  /** Whatever a path reaches in a well-formed tree is well formed. */
  lemma {:induction false} FindWellFormed(n: Node, p: Path)
    requires WellFormed(n) && Find(n, p).Some?
    ensures WellFormed(Find(n, p).value)
    decreases |p|
  {
    ResolveWellFormed(n);
    if p != [] {
      var cs := Resolve(n).children;
      LookupFirst(cs, p[0]);
      FindWellFormed(Lookup(cs, p[0]).value, p[1..]);
    }
  }

  lemma {:induction false} ResolveWellFormed(n: Node)
    requires WellFormed(n)
    ensures WellFormed(Resolve(n))
  {
    if n.Link? {
      ResolveWellFormed(n.target);
    }
  }

  /** The node Lookup returns belongs to some child of the listing. */
  lemma LookupFirst(cs: seq<Child>, name: Name)
    requires Lookup(cs, name).Some?
    ensures exists i :: 0 <= i < |cs| && cs[i].name == name && cs[i].node == Lookup(cs, name).value
  {
    if cs[0].name != name {
      LookupFirst(cs[1..], name);
      var i :| 0 <= i < |cs[1..]| && cs[1..][i].name == name && cs[1..][i].node == Lookup(cs, name).value;
      assert cs[i + 1] == cs[1..][i];
    }
  }
}

=== FILE: folder.dfy ===
/**
  What `getFolderEntries` yields, as a recursive reference definition over the
  tree, and the properties of that definition: exactly the regular files that
  no ignore query excludes, each once, at the base joined with its relative path.
 */
module Folder {
  import opened Wrappers
  import opened Paths
  import opened FileTree

  /** One gitignore-style pattern. */
  type Pattern = string

  /**
    The ignore library: `lib(patterns, query)` is what
    `ignore().add(patterns).ignores(query)` answers. Its gitignore semantics
    are not modelled; every property below holds for any such function.
   */
  type IgnoreLib = (seq<Pattern>, string) -> bool

  /** An archive entry: where it goes in the archive and whose bytes it reads. */
  datatype Entry = Entry(path: Location, file: FileId)

  /** The options `getFolderEntries` takes; an absent field takes its default. */
  datatype FolderOptions = FolderOptions(archivePath: Option<Location>, ignore: Option<seq<Pattern>>, source: Path)

  /** `readdir` on the source failed: it is missing or not a directory. */
  datatype WalkError = CannotList(source: Path)

  function BaseOf(opts: FolderOptions): Location
  {
    opts.archivePath.GetOr(ArchiveRoot)
  }

  function PatternsOf(opts: FolderOptions): seq<Pattern>
  {
    opts.ignore.GetOr([])
  }

  /** Whether the matcher drops the child at relative path `rel`. */
  predicate Ignored(lib: IgnoreLib, pats: seq<Pattern>, rel: Path, isDir: bool)
  {
    lib(pats, Query(rel, isDir))
  }

  /**
    The entries a child contributes when it sits at relative path `rel`:
    a directory that is not ignored contributes its listing's entries, a
    regular file that is not ignored contributes itself, anything else nothing.
   */
  function NodeEntries(lib: IgnoreLib, pats: seq<Pattern>, base: Location, n: Node, rel: Path): seq<Entry>
    decreases Size(n), 0
  {
    match KindOf(n)
    case Directory =>
      if Ignored(lib, pats, rel, true) then []
      else ListEntries(lib, pats, base, Resolve(n).children, rel)
    case RegularFile =>
      if Ignored(lib, pats, rel, false) then []
      else [Entry(Join(base, rel), Resolve(n).id)]
    case OtherKind => []
  }

  /** The entries of a directory listing `cs` whose directory sits at relative path `rel`. */
  function ListEntries(lib: IgnoreLib, pats: seq<Pattern>, base: Location, cs: seq<Child>, rel: Path): seq<Entry>
    decreases SizeOfChildren(cs), 1
  {
    if cs == [] then []
    else NodeEntries(lib, pats, base, cs[0].node, rel + [cs[0].name])
         + ListEntries(lib, pats, base, cs[1..], rel)
  }

  /**
    Reference definition of `getFolderEntries` (in depth-first listing order;
    the walker's own order differs and nothing depends on it). Fails exactly
    when the source cannot be listed.
   */
  function FolderEntries(lib: IgnoreLib, fs: Node, opts: FolderOptions): (r: Result<seq<Entry>, WalkError>)
    ensures r.Failure? <==> !(Find(fs, opts.source).Some? && Find(fs, opts.source).value.Dir?)
    ensures r.Failure? ==> r.error == CannotList(opts.source)
  {
    match Find(fs, opts.source)
    case Some(Dir(cs)) => Success(ListEntries(lib, PatternsOf(opts), BaseOf(opts), cs, []))
    case _ => Failure(CannotList(opts.source))
  }

  /** `l` lies at or below `prefix`. */
  predicate Below(l: Location, prefix: Location)
  {
    && l.absolute == prefix.absolute
    && |prefix.segments| <= |l.segments|
    && l.segments[..|prefix.segments|] == prefix.segments
  }

  /**
    No query on the way down to `q + t` is ignored, counting from `q` itself:
    each directory `q + t[..k]` with its trailing `/`, then the file `q + t`.
   */
  predicate VisibleBelow(lib: IgnoreLib, pats: seq<Pattern>, q: Path, t: Path)
  {
    && !Ignored(lib, pats, q + t, false)
    && forall k :: 0 <= k < |t| ==> !Ignored(lib, pats, q + t[..k], true)
  }

  /** Like VisibleBelow, for a path `rel + s` under a listing at `rel` (which is not itself queried). */
  predicate VisibleFrom(lib: IgnoreLib, pats: seq<Pattern>, rel: Path, s: Path)
  {
    && !Ignored(lib, pats, rel + s, false)
    && forall k :: 1 <= k < |s| ==> !Ignored(lib, pats, rel + s[..k], true)
  }

  /**
    The file at relative path `rel` survives the walk's ignore tests: no
    ancestor directory below the source is ignored, and neither is the file.
   */
  predicate Visible(lib: IgnoreLib, pats: seq<Pattern>, rel: Path)
  {
    |rel| >= 1 && VisibleFrom(lib, pats, [], rel)
  }

  /**
    The characterisation of the walk's output: `e` is yielded exactly when its
    path is the base joined with a relative path `rel`, that path names the
    regular file `e.file` below the source (links followed), and `rel` is Visible.
   */
  predicate IsArchivedFile(lib: IgnoreLib, fs: Node, opts: FolderOptions, e: Entry)
  {
    var base := BaseOf(opts);
    && Below(e.path, base) && |base.segments| < |e.path.segments|
    && var rel := e.path.segments[|base.segments|..];
       && Find(fs, opts.source + rel) == Some(File(e.file))
       && Visible(lib, PatternsOf(opts), rel)
  }

  predicate DistinctPaths(es: seq<Entry>)
  {
    forall i, j :: 0 <= i < j < |es| ==> es[i].path != es[j].path
  }

  // ---------------------------------------------------------------------------
  // Where entries land

  /** Every entry a child at `rel` contributes lies below the base joined with `rel`. */
  lemma {:induction false} NodeEntriesUnder(lib: IgnoreLib, pats: seq<Pattern>, base: Location, n: Node, rel: Path, e: Entry)
    requires e in NodeEntries(lib, pats, base, n, rel)
    ensures Below(e.path, Join(base, rel))
    decreases Size(n), 0
  {
    if KindOf(n) == Directory {
      ListEntriesUnder(lib, pats, base, Resolve(n).children, rel, e);
    }
  }

  /**
    Every entry of a listing at `rel` lies strictly below the base joined with
    `rel`, and its next component names a child of the listing.
   */
  lemma {:induction false} ListEntriesUnder(lib: IgnoreLib, pats: seq<Pattern>, base: Location, cs: seq<Child>, rel: Path, e: Entry)
    requires e in ListEntries(lib, pats, base, cs, rel)
    ensures Below(e.path, Join(base, rel))
    ensures |e.path.segments| > |base.segments| + |rel|
    ensures Lookup(cs, e.path.segments[|base.segments| + |rel|]).Some?
    decreases SizeOfChildren(cs), 1
  {
    var q := rel + [cs[0].name];
    if e in NodeEntries(lib, pats, base, cs[0].node, q) {
      NodeEntriesUnder(lib, pats, base, cs[0].node, q, e);
      var segs := e.path.segments;
      assert segs[..|base.segments| + |q|] == base.segments + q;
      assert segs[..|base.segments| + |q|][|base.segments| + |rel|] == cs[0].name;
      assert segs[..|base.segments| + |rel|] == (base.segments + q)[..|base.segments| + |rel|];
    } else {
      ListEntriesUnder(lib, pats, base, cs[1..], rel, e);
    }
  }

  // ---------------------------------------------------------------------------
  // Exactly the visible regular files

  /** A file path reached through name `name` is visible from the listing iff it is visible below the child. */
  lemma VisibleShift(lib: IgnoreLib, pats: seq<Pattern>, rel: Path, name: Name, t: Path)
    ensures VisibleFrom(lib, pats, rel, [name] + t) <==> VisibleBelow(lib, pats, rel + [name], t)
  {
    var s := [name] + t;
    var q := rel + [name];
    assert rel + s == q + t;
    forall k | 0 <= k < |t|
      ensures rel + s[..k + 1] == q + t[..k]
    {
      assert s[..k + 1] == [name] + t[..k];
    }
    if VisibleFrom(lib, pats, rel, s) {
      forall k | 0 <= k < |t|
        ensures !Ignored(lib, pats, q + t[..k], true)
      {
        assert rel + s[..k + 1] == q + t[..k];
      }
    }
    if VisibleBelow(lib, pats, q, t) {
      forall k | 1 <= k < |s|
        ensures !Ignored(lib, pats, rel + s[..k], true)
      {
        assert rel + s[..k] == q + t[..k - 1];
      }
    }
  }

  /** In a well-formed listing, a later child never shares the first child's name. */
  lemma TailMissesHead(cs: seq<Child>)
    requires cs != [] && DistinctNames(cs)
    ensures Lookup(cs[1..], cs[0].name).None?
  {
  }

  /**
    The entry for `q + t` comes out of a child at `q` exactly when `t` leads
    from the child to the regular file `id` and nothing on the way is ignored.
   */
  lemma {:induction false} NodeEntriesExactly(lib: IgnoreLib, pats: seq<Pattern>, base: Location, n: Node, q: Path, t: Path, id: FileId)
    requires WellFormed(n)
    ensures Entry(Join(base, q + t), id) in NodeEntries(lib, pats, base, n, q)
            <==> Find(n, t) == Some(File(id)) && VisibleBelow(lib, pats, q, t)
    decreases Size(n), 0
  {
    var target := Entry(Join(base, q + t), id);
    ResolveWellFormed(n);
    if KindOf(n) == Directory {
      var cs := Resolve(n).children;
      if t == [] {
        assert q + t == q;
        if target in NodeEntries(lib, pats, base, n, q) {
          ListEntriesUnder(lib, pats, base, cs, q, target);
        }
      } else {
        assert q + t[..0] == q;
        if !Ignored(lib, pats, q, true) {
          ListEntriesExactly(lib, pats, base, cs, q, t, id);
        }
      }
    } else if KindOf(n) == RegularFile {
      if t == [] {
        assert q + t == q;
      }
    }
  }

  /**
    The entry for `rel + s` comes out of a listing at `rel` exactly when `s`
    leads from the listing to the regular file `id` and nothing on the way is
    ignored.
   */
  lemma {:induction false} ListEntriesExactly(lib: IgnoreLib, pats: seq<Pattern>, base: Location, cs: seq<Child>, rel: Path, s: Path, id: FileId)
    requires WellFormed(Dir(cs))
    requires |s| >= 1
    ensures Entry(Join(base, rel + s), id) in ListEntries(lib, pats, base, cs, rel)
            <==> Find(Dir(cs), s) == Some(File(id)) && VisibleFrom(lib, pats, rel, s)
    decreases SizeOfChildren(cs), 2
  {
    if cs != [] {
      if s[0] == cs[0].name {
        ListEntriesExactlyFirst(lib, pats, base, cs, rel, s, id);
      } else {
        ListEntriesExactlyRest(lib, pats, base, cs, rel, s, id);
      }
    }
  }

  /** ListEntriesExactly when the path starts at the listing's first child. */
  lemma {:induction false} ListEntriesExactlyFirst(lib: IgnoreLib, pats: seq<Pattern>, base: Location, cs: seq<Child>, rel: Path, s: Path, id: FileId)
    requires WellFormed(Dir(cs))
    requires |s| >= 1 && cs != [] && s[0] == cs[0].name
    ensures Entry(Join(base, rel + s), id) in ListEntries(lib, pats, base, cs, rel)
            <==> Find(Dir(cs), s) == Some(File(id)) && VisibleFrom(lib, pats, rel, s)
    decreases SizeOfChildren(cs), 1
  {
    var target := Entry(Join(base, rel + s), id);
    var c := cs[0];
    var q := rel + [c.name];
    var t := s[1..];
    assert s == [s[0]] + t;
    assert rel + s == q + t;
    WellFormedSplit(cs);
    assert (base.segments + (rel + s))[|base.segments| + |rel|] == s[0];
    TailMissesHead(cs);
    if target in ListEntries(lib, pats, base, cs[1..], rel) {
      ListEntriesUnder(lib, pats, base, cs[1..], rel, target);
    }
    NodeEntriesExactly(lib, pats, base, c.node, q, t, id);
    VisibleShift(lib, pats, rel, c.name, t);
  }

  /** ListEntriesExactly when the path does not start at the listing's first child. */
  lemma {:induction false} ListEntriesExactlyRest(lib: IgnoreLib, pats: seq<Pattern>, base: Location, cs: seq<Child>, rel: Path, s: Path, id: FileId)
    requires WellFormed(Dir(cs))
    requires |s| >= 1 && cs != [] && s[0] != cs[0].name
    ensures Entry(Join(base, rel + s), id) in ListEntries(lib, pats, base, cs, rel)
            <==> Find(Dir(cs), s) == Some(File(id)) && VisibleFrom(lib, pats, rel, s)
    decreases SizeOfChildren(cs), 1
  {
    SkipFirstChild(lib, pats, base, cs, rel, s, id);
    SkipFirstChildFind(cs, s);
    WellFormedSplit(cs);
    ListEntriesExactly(lib, pats, base, cs[1..], rel, s, id);
  }

  /** An entry whose path does not start at the first child does not come from it. */
  lemma SkipFirstChild(lib: IgnoreLib, pats: seq<Pattern>, base: Location, cs: seq<Child>, rel: Path, s: Path, id: FileId)
    requires |s| >= 1 && cs != [] && s[0] != cs[0].name
    ensures var target := Entry(Join(base, rel + s), id);
            (target in ListEntries(lib, pats, base, cs, rel)) == (target in ListEntries(lib, pats, base, cs[1..], rel))
  {
    var target := Entry(Join(base, rel + s), id);
    var q := rel + [cs[0].name];
    var a := NodeEntries(lib, pats, base, cs[0].node, q);
    assert ListEntries(lib, pats, base, cs, rel) == a + ListEntries(lib, pats, base, cs[1..], rel);
    assert target !in a by {
      assert (base.segments + (rel + s))[|base.segments| + |rel|] == s[0];
      if target in a {
        NodeEntriesUnder(lib, pats, base, cs[0].node, q, target);
      }
    }
  }

  /** A path that does not start at the first child is not found through it. */
  lemma SkipFirstChildFind(cs: seq<Child>, s: Path)
    requires |s| >= 1 && cs != [] && s[0] != cs[0].name
    ensures Find(Dir(cs), s) == Find(Dir(cs[1..]), s)
  {
    assert Lookup(cs, s[0]) == Lookup(cs[1..], s[0]);
  }

  /** Entries of a walk all lie strictly below the walk's base. */
  lemma FolderEntriesBelowBase(lib: IgnoreLib, fs: Node, opts: FolderOptions, e: Entry)
    requires FolderEntries(lib, fs, opts).Success?
    requires e in FolderEntries(lib, fs, opts).value
    ensures Below(e.path, BaseOf(opts)) && |e.path.segments| > |BaseOf(opts).segments|
  {
    var cs := Find(fs, opts.source).value.children;
    ListEntriesUnder(lib, PatternsOf(opts), BaseOf(opts), cs, [], e);
  }

  /**
    Main theorem of the walk: on a well-formed tree whose source can be
    listed, an entry is yielded exactly when it is an archived file — a
    regular file below the source, reached through no ignored directory and
    not ignored itself, placed at the base joined with its relative path.
   */
  lemma FolderEntriesExactly(lib: IgnoreLib, fs: Node, opts: FolderOptions, e: Entry)
    requires WellFormed(fs)
    requires FolderEntries(lib, fs, opts).Success?
    ensures e in FolderEntries(lib, fs, opts).value <==> IsArchivedFile(lib, fs, opts, e)
  {
    var base := BaseOf(opts);
    var pats := PatternsOf(opts);
    var root := Find(fs, opts.source).value;
    var cs := root.children;
    FindWellFormed(fs, opts.source);
    if e in FolderEntries(lib, fs, opts).value {
      FolderEntriesBelowBase(lib, fs, opts, e);
    }
    if Below(e.path, base) && |e.path.segments| > |base.segments| {
      var rel := e.path.segments[|base.segments|..];
      assert e.path == Join(base, [] + rel);
      ListEntriesExactly(lib, pats, base, cs, [], rel, e.file);
      FindConcat(fs, opts.source, rel);
      assert Find(root, rel) == Find(Dir(cs), rel);
    }
  }

  // ---------------------------------------------------------------------------
  // Consequences stated separately

  /**
    With a matcher that ignores nothing, the walk yields exactly one entry per
    regular file below the source, links followed, and nothing else.
   */
  lemma WalkWithoutIgnoresYieldsEveryFile(lib: IgnoreLib, fs: Node, opts: FolderOptions, rel: Path, id: FileId)
    requires WellFormed(fs)
    requires FolderEntries(lib, fs, opts).Success?
    requires forall query :: !lib(PatternsOf(opts), query)
    ensures Entry(Join(BaseOf(opts), rel), id) in FolderEntries(lib, fs, opts).value
            <==> |rel| >= 1 && Find(fs, opts.source + rel) == Some(File(id))
  {
    var e := Entry(Join(BaseOf(opts), rel), id);
    FolderEntriesExactly(lib, fs, opts, e);
    assert e.path.segments[|BaseOf(opts).segments|..] == rel;
  }

  /**
    Once a directory is ignored, nothing below it is yielded, whatever the
    matcher says about the descendants themselves.
   */
  lemma IgnoredDirectoryIsPruned(lib: IgnoreLib, fs: Node, opts: FolderOptions, rel: Path, k: nat, id: FileId)
    requires WellFormed(fs)
    requires FolderEntries(lib, fs, opts).Success?
    requires 1 <= k < |rel|
    requires Ignored(lib, PatternsOf(opts), rel[..k], true)
    ensures Entry(Join(BaseOf(opts), rel), id) !in FolderEntries(lib, fs, opts).value
  {
    var e := Entry(Join(BaseOf(opts), rel), id);
    FolderEntriesExactly(lib, fs, opts, e);
    assert e.path.segments[|BaseOf(opts).segments|..] == rel;
    assert [] + rel[..k] == rel[..k];
  }

  /** An ignored file is never yielded. */
  lemma IgnoredFileIsSkipped(lib: IgnoreLib, fs: Node, opts: FolderOptions, rel: Path, id: FileId)
    requires WellFormed(fs)
    requires FolderEntries(lib, fs, opts).Success?
    requires Ignored(lib, PatternsOf(opts), rel, false)
    ensures Entry(Join(BaseOf(opts), rel), id) !in FolderEntries(lib, fs, opts).value
  {
    var e := Entry(Join(BaseOf(opts), rel), id);
    FolderEntriesExactly(lib, fs, opts, e);
    assert e.path.segments[|BaseOf(opts).segments|..] == rel;
    assert [] + rel == rel;
  }

  /** Without an archive path, every entry is rooted at `/`. */
  lemma DefaultBaseIsRoot(lib: IgnoreLib, fs: Node, opts: FolderOptions, e: Entry)
    requires opts.archivePath.None?
    requires FolderEntries(lib, fs, opts).Success?
    requires e in FolderEntries(lib, fs, opts).value
    ensures e.path.absolute && |e.path.segments| >= 1
  {
    FolderEntriesBelowBase(lib, fs, opts, e);
  }

  /** An absent ignore list behaves exactly as an empty one. */
  lemma AbsentIgnoreIsEmptyIgnore(lib: IgnoreLib, fs: Node, a: Option<Location>, src: Path)
    ensures FolderEntries(lib, fs, FolderOptions(a, None, src))
            == FolderEntries(lib, fs, FolderOptions(a, Some([]), src))
  {
  }

  /** An empty source directory yields no entries, and that is not an error. */
  lemma EmptySourceYieldsNothing(lib: IgnoreLib, fs: Node, opts: FolderOptions)
    requires Find(fs, opts.source) == Some(Dir([]))
    ensures FolderEntries(lib, fs, opts) == Success([])
  {
  }

  // ---------------------------------------------------------------------------
  // Each file once

  lemma DistinctConcat(a: seq<Entry>, b: seq<Entry>)
    requires DistinctPaths(a) && DistinctPaths(b)
    requires forall i, j :: 0 <= i < |a| && 0 <= j < |b| ==> a[i].path != b[j].path
    ensures DistinctPaths(a + b)
  {
  }

  lemma {:induction false} NodeEntriesDistinct(lib: IgnoreLib, pats: seq<Pattern>, base: Location, n: Node, rel: Path)
    requires WellFormed(n)
    ensures DistinctPaths(NodeEntries(lib, pats, base, n, rel))
    decreases Size(n), 0
  {
    ResolveWellFormed(n);
    if KindOf(n) == Directory {
      ListEntriesDistinct(lib, pats, base, Resolve(n).children, rel);
    }
  }

  lemma {:induction false} ListEntriesDistinct(lib: IgnoreLib, pats: seq<Pattern>, base: Location, cs: seq<Child>, rel: Path)
    requires WellFormed(Dir(cs))
    ensures DistinctPaths(ListEntries(lib, pats, base, cs, rel))
    decreases SizeOfChildren(cs), 1
  {
    if cs != [] {
      var c := cs[0];
      var q := rel + [c.name];
      var a := NodeEntries(lib, pats, base, c.node, q);
      var b := ListEntries(lib, pats, base, cs[1..], rel);
      assert WellFormed(c.node);
      WellFormedSplit(cs);
      NodeEntriesDistinct(lib, pats, base, c.node, q);
      ListEntriesDistinct(lib, pats, base, cs[1..], rel);
      TailMissesHead(cs);
      forall i, j | 0 <= i < |a| && 0 <= j < |b|
        ensures a[i].path != b[j].path
      {
        NodeEntriesUnder(lib, pats, base, c.node, q, a[i]);
        ListEntriesUnder(lib, pats, base, cs[1..], rel, b[j]);
        var k := |base.segments| + |rel|;
        assert a[i].path.segments[..k + 1] == base.segments + q;
        assert a[i].path.segments[k] == (base.segments + q)[k] == c.name;
      }
      DistinctConcat(a, b);
    }
  }

  /** The first child of a well-formed listing, and the rest of it, are well formed. */
  lemma WellFormedSplit(cs: seq<Child>)
    requires WellFormed(Dir(cs)) && cs != []
    ensures ValidName(cs[0].name) && WellFormed(cs[0].node) && WellFormed(Dir(cs[1..]))
  {
    forall i, j | 0 <= i < j < |cs[1..]|
      ensures cs[1..][i].name != cs[1..][j].name
    {
      assert cs[1..][i] == cs[i + 1] && cs[1..][j] == cs[j + 1];
    }
  }

  lemma {:induction false} NodeEntriesValid(lib: IgnoreLib, pats: seq<Pattern>, base: Location, n: Node, rel: Path, e: Entry)
    requires WellFormed(n) && ValidPath(base.segments + rel)
    requires e in NodeEntries(lib, pats, base, n, rel)
    ensures ValidPath(e.path.segments)
    decreases Size(n), 0
  {
    ResolveWellFormed(n);
    if KindOf(n) == Directory {
      ListEntriesValid(lib, pats, base, Resolve(n).children, rel, e);
    }
  }

  /** Below a listing whose path is made of valid names, every entry's path is too. */
  lemma {:induction false} ListEntriesValid(lib: IgnoreLib, pats: seq<Pattern>, base: Location, cs: seq<Child>, rel: Path, e: Entry)
    requires WellFormed(Dir(cs)) && ValidPath(base.segments + rel)
    requires e in ListEntries(lib, pats, base, cs, rel)
    ensures ValidPath(e.path.segments)
    decreases SizeOfChildren(cs), 1
  {
    WellFormedSplit(cs);
    var q := rel + [cs[0].name];
    assert base.segments + q == (base.segments + rel) + [cs[0].name];
    if e in NodeEntries(lib, pats, base, cs[0].node, q) {
      NodeEntriesValid(lib, pats, base, cs[0].node, q, e);
    } else {
      ListEntriesValid(lib, pats, base, cs[1..], rel, e);
    }
  }

  /**
    On a well-formed tree and a base made of valid names, no two entries share
    the text of their archive path: distinct paths are distinct strings.
   */
  lemma FolderEntriesDistinctText(lib: IgnoreLib, fs: Node, opts: FolderOptions)
    requires WellFormed(fs)
    requires FolderEntries(lib, fs, opts).Success?
    requires ValidPath(BaseOf(opts).segments)
    ensures var es := FolderEntries(lib, fs, opts).value;
            forall i, j :: 0 <= i < j < |es| ==> Text(es[i].path.segments) != Text(es[j].path.segments)
  {
    var es := FolderEntries(lib, fs, opts).value;
    var base := BaseOf(opts);
    var cs := Find(fs, opts.source).value.children;
    FolderEntriesDistinct(lib, fs, opts);
    FindWellFormed(fs, opts.source);
    assert base.segments + [] == base.segments;
    forall i, j | 0 <= i < j < |es|
      ensures Text(es[i].path.segments) != Text(es[j].path.segments)
    {
      ListEntriesValid(lib, PatternsOf(opts), base, cs, [], es[i]);
      ListEntriesValid(lib, PatternsOf(opts), base, cs, [], es[j]);
      FolderEntriesBelowBase(lib, fs, opts, es[i]);
      FolderEntriesBelowBase(lib, fs, opts, es[j]);
      TextRoundTrip(es[i].path.segments);
      TextRoundTrip(es[j].path.segments);
    }
  }

  /** On a well-formed tree, no archive path is yielded twice. */
  lemma FolderEntriesDistinct(lib: IgnoreLib, fs: Node, opts: FolderOptions)
    requires WellFormed(fs)
    requires FolderEntries(lib, fs, opts).Success?
    ensures DistinctPaths(FolderEntries(lib, fs, opts).value)
  {
    FindWellFormed(fs, opts.source);
    ListEntriesDistinct(lib, PatternsOf(opts), BaseOf(opts), Find(fs, opts.source).value.children, []);
  }
}

=== FILE: packages.dfy ===
/**
  The pure parts of `getPackageEntries`: choosing the package manager from
  the lockfile name, building the minimal `package.json` and the `.npmrc`,
  gating enumeration on the install's exit code, and turning the install's
  layout into folder walks — one walk of `node_modules` for npm and yarn, the
  `.pnpm` store plus one re-rooted walk per hoisted alias for pnpm.

  The result is a Stream: the entries yielded, in order, and the error that
  ended the generator, if any (entries yielded before it stay yielded).
 */
module Packages {
  import opened Wrappers
  import opened Strings
  import opened Paths
  import opened FileTree
  import opened Folder

  datatype LockKind = Npm | Yarn | Pnpm

  datatype PackageError =
    | UnknownLockfile(lockPath: Path)
    | ManifestUnreadable(manifestPath: Path)
    | MissingDependency(name: string)
    | InstallFailed(code: Option<int>)
    | ModulesStateUnreadable
    | CannotListDirectory(source: Path)

  /** The package manager a lockfile belongs to, decided by its file name alone. */
  function LockKindOf(lockBasename: string): (k: Option<LockKind>)
    ensures k == Some(Npm) <==> lockBasename == "package-lock.json"
    ensures k == Some(Yarn) <==> lockBasename == "yarn.lock"
    ensures k == Some(Pnpm) <==> lockBasename == "pnpm-lock.yaml"
  {
    if lockBasename == "package-lock.json" then Some(Npm)
    else if lockBasename == "yarn.lock" then Some(Yarn)
    else if lockBasename == "pnpm-lock.yaml" then Some(Pnpm)
    else None
  }

  /** The install command line run in the scratch directory. */
  function InstallCommand(k: LockKind): seq<string>
  {
    match k
    case Npm => ["npm", "ci"]
    case Yarn => ["yarn", "--frozen-lockfile"]
    case Pnpm => ["pnpm", "install", "--no-frozen-lockfile"]
  }

  // ---------------------------------------------------------------------------
  // The minimal package.json

  /** The two dependency sections of the project's parsed `package.json`; either may be absent. */
  datatype Manifest = Manifest(dependencies: Option<map<string, string>>, devDependencies: Option<map<string, string>>)

  /** The synthetic `package.json` written to the scratch directory. */
  datatype PackageJson = PackageJson(name: string, private: bool, dependencies: map<string, string>)

  /** `section && section[dep]`, kept only when truthy (a non-empty version string). */
  function SectionVersion(section: Option<map<string, string>>, dep: string): Option<string>
  {
    if section.Some? && dep in section.value && section.value[dep] != "" then Some(section.value[dep])
    else None
  }

  /**
    The version a requested name resolves to: its truthy `dependencies` entry,
    else its truthy `devDependencies` entry, else none.
   */
  function VersionOf(m: Manifest, dep: string): (v: Option<string>)
    ensures m.dependencies.Some? && dep in m.dependencies.value && m.dependencies.value[dep] != ""
            ==> v == Some(m.dependencies.value[dep])
    ensures !(m.dependencies.Some? && dep in m.dependencies.value && m.dependencies.value[dep] != "")
            && m.devDependencies.Some? && dep in m.devDependencies.value && m.devDependencies.value[dep] != ""
            ==> v == Some(m.devDependencies.value[dep])
    ensures v.None? <==> !(m.dependencies.Some? && dep in m.dependencies.value && m.dependencies.value[dep] != "")
                         && !(m.devDependencies.Some? && dep in m.devDependencies.value && m.devDependencies.value[dep] != "")
  {
    match SectionVersion(m.dependencies, dep)
    case Some(v) => Some(v)
    case None => SectionVersion(m.devDependencies, dep)
  }

  /** `e` reports `names[i]`, the first requested name with no version. */
  predicate FirstMissing(m: Manifest, names: seq<string>, e: PackageError)
  {
    exists i :: 0 <= i < |names| && e == MissingDependency(names[i]) && VersionOf(m, names[i]).None?
                && forall j :: 0 <= j < i ==> VersionOf(m, names[j]).Some?
  }

  /**
    The `dependencies` of the synthetic `package.json`: its keys are exactly
    the requested names, each mapped to its resolved version. It fails, on
    the first unresolvable name, exactly when some name has no version.
   */
  function SliceDependencies(m: Manifest, names: seq<string>): (r: Result<map<string, string>, PackageError>)
    ensures r.Success? <==> forall i :: 0 <= i < |names| ==> VersionOf(m, names[i]).Some?
    ensures r.Success? ==> r.value.Keys == set d | d in names
    ensures r.Success? ==> forall d :: d in r.value ==> VersionOf(m, d) == Some(r.value[d])
    ensures r.Failure? ==> FirstMissing(m, names, r.error)
  {
    if names == [] then Success(map[])
    else
      match VersionOf(m, names[0])
      case None => Failure(MissingDependency(names[0]))
      case Some(v) =>
        var rest := SliceDependencies(m, names[1..]);
        if rest.Failure? then
          assert forall j :: 1 <= j < |names| ==> names[j] == names[1..][j - 1];
          var i :| 0 <= i < |names[1..]| && rest.error == MissingDependency(names[1..][i]) && VersionOf(m, names[1..][i]).None?
                   && forall j :: 0 <= j < i ==> VersionOf(m, names[1..][j]).Some?;
          assert rest.error == MissingDependency(names[i + 1]);
          Failure(rest.error)
        else
          assert forall j :: 1 <= j < |names| ==> names[j] == names[1..][j - 1];
          assert (set d | d in names) == {names[0]} + set d | d in names[1..];
          Success(rest.value[names[0] := v])
  }

  // ---------------------------------------------------------------------------
  // The .npmrc file

  /** An option JavaScript treats as given: present and not the empty string. */
  predicate Supplied(o: Option<string>)
  {
    o.Some? && o.value != ""
  }

  /** The `.npmrc` lines: `arch=…` when an architecture is given, then `platform=…` when a platform is. */
  function NpmConfig(arch: Option<string>, platform: Option<string>): (lines: seq<string>)
    ensures |lines| == (if Supplied(arch) then 1 else 0) + (if Supplied(platform) then 1 else 0)
    ensures Supplied(arch) ==> lines[0] == "arch=" + arch.value
    ensures Supplied(platform) ==> lines[|lines| - 1] == "platform=" + platform.value
  {
    (if Supplied(arch) then ["arch=" + arch.value] else [])
    + (if Supplied(platform) then ["platform=" + platform.value] else [])
  }

  /** The `.npmrc` content, or None when the file is not written (no lines). */
  function NpmrcContent(lines: seq<string>): (content: Option<string>)
    ensures content.None? <==> lines == []
    ensures content.Some? ==> |content.value| >= 1 && content.value[|content.value| - 1] == '\n'
    ensures content.Some? && (forall i :: 0 <= i < |lines| ==> '\n' !in lines[i])
            ==> SplitOn(content.value[..|content.value| - 1], '\n') == lines
  {
    if lines == [] then None
    else
      JoinedLines(lines);
      Some(JoinWith(lines, '\n') + "\n")
  }

  /** Newline-joined text with its final newline dropped splits back into its lines. */
  lemma JoinedLines(lines: seq<string>)
    requires lines != []
    ensures var text := JoinWith(lines, '\n') + "\n";
            (forall i :: 0 <= i < |lines| ==> '\n' !in lines[i]) ==> SplitOn(text[..|text| - 1], '\n') == lines
  {
    var text := JoinWith(lines, '\n');
    assert (text + "\n")[..|text + "\n"| - 1] == text;
    if forall i :: 0 <= i < |lines| ==> '\n' !in lines[i] {
      SplitJoin(lines, '\n');
    }
  }

  /**
    The `.npmrc` is written exactly when an architecture or a platform is
    given; it ends in a newline, and cutting it at its newlines gives back the
    configuration lines (values are taken to be single-line).
   */
  lemma NpmrcRoundTrip(arch: Option<string>, platform: Option<string>)
    requires arch.Some? ==> '\n' !in arch.value
    requires platform.Some? ==> '\n' !in platform.value
    ensures var lines := NpmConfig(arch, platform);
            var content := NpmrcContent(lines);
            && (content.Some? <==> Supplied(arch) || Supplied(platform))
            && (content.Some? ==>
                  && |content.value| >= 1 && content.value[|content.value| - 1] == '\n'
                  && SplitOn(content.value[..|content.value| - 1], '\n') == lines)
  {
    var lines := NpmConfig(arch, platform);
    if lines != [] {
      forall i | 0 <= i < |lines|
        ensures '\n' !in lines[i]
      {
        if Supplied(arch) && i == 0 {
          assert lines[i] == "arch=" + arch.value;
        } else {
          assert lines[i] == "platform=" + platform.value;
        }
      }
    }
  }

  /** Only exit code 0 lets enumeration begin; any other code, or none, fails the install. */
  function ExitCheck(code: Option<int>): (r: Option<PackageError>)
    ensures r.None? <==> code == Some(0)
    ensures r.Some? ==> r.value == InstallFailed(code)
  {
    if code == Some(0) then None else Some(InstallFailed(code))
  }

  // ---------------------------------------------------------------------------
  // Preparing the install

  /** The options `getPackageEntries` takes; paths are segment sequences. */
  datatype PackageOptions = PackageOptions(
    archivePath: Option<Location>,
    ignorePaths: Option<seq<Pattern>>,
    packageArch: Option<string>,
    packageFilePath: Path,
    packagePlatform: Option<string>,
    packageLockPath: Path,
    packageNames: seq<string>)

  /** What is written to the scratch directory and run there. */
  datatype InstallPlan = InstallPlan(
    kind: LockKind,
    command: seq<string>,
    packageJson: PackageJson,
    lockfileName: string,
    npmrc: Option<string>)

  /**
    Everything before the install: the lockfile kind (checked before the
    manifest is read), the manifest (None when it cannot be read or parsed),
    the synthetic `package.json`, the `.npmrc`.
   */
  function PrepareInstall(opts: PackageOptions, manifest: Option<Manifest>): (r: Result<InstallPlan, PackageError>)
    ensures LockKindOf(Basename(opts.packageLockPath)).None? ==> r == Failure(UnknownLockfile(opts.packageLockPath))
    ensures LockKindOf(Basename(opts.packageLockPath)).Some? && manifest.None? ==> r == Failure(ManifestUnreadable(opts.packageFilePath))
    ensures r.Success? <==> LockKindOf(Basename(opts.packageLockPath)).Some? && manifest.Some?
                            && forall i :: 0 <= i < |opts.packageNames| ==> VersionOf(manifest.value, opts.packageNames[i]).Some?
    ensures r.Success? ==> LockKindOf(Basename(opts.packageLockPath)) == Some(r.value.kind)
    ensures r.Success? ==> r.value.lockfileName == Basename(opts.packageLockPath)
    ensures r.Success? ==> r.value.command == InstallCommand(r.value.kind)
    ensures r.Success? ==> r.value.npmrc == NpmrcContent(NpmConfig(opts.packageArch, opts.packagePlatform))
    ensures r.Success? ==>
              && r.value.packageJson.name == "build" && r.value.packageJson.private
              && manifest.Some?
              && r.value.packageJson.dependencies.Keys == set d | d in opts.packageNames
              && forall d :: d in r.value.packageJson.dependencies ==>
                   VersionOf(manifest.value, d) == Some(r.value.packageJson.dependencies[d])
  {
    var lockName := Basename(opts.packageLockPath);
    match LockKindOf(lockName)
    case None => Failure(UnknownLockfile(opts.packageLockPath))
    case Some(kind) =>
      match manifest
      case None => Failure(ManifestUnreadable(opts.packageFilePath))
      case Some(m) =>
        var deps :- SliceDependencies(m, opts.packageNames);
        Success(InstallPlan(
          kind, InstallCommand(kind), PackageJson("build", true, deps), lockName,
          NpmrcContent(NpmConfig(opts.packageArch, opts.packagePlatform))))
  }

  // ---------------------------------------------------------------------------
  // From the install layout to folder walks

  /** One `getFolderEntries` call: its source, relative to the scratch directory, and its archive base. */
  datatype WalkRequest = WalkRequest(source: Path, archivePath: Location)

  /** One key of pnpm's `hoistedDependencies`: a `name@version` and its alias names, in key order. */
  datatype HoistEntry = HoistEntry(packageAtVersion: string, aliases: seq<string>)

  /** The parsed `node_modules/.modules.yaml`; its `hoistedDependencies` key may be absent. */
  datatype ModulesState = ModulesState(hoistedDependencies: Option<seq<HoistEntry>>)

  const NodeModules: Path := ["node_modules"]

  /** The default archive path of the package entries: `node_modules`. */
  const DefaultPackageBase := Location(false, NodeModules)

  /** The walk of the whole content-addressable store, placed under `<base>/.pnpm`. */
  function StoreRequest(base: Location): WalkRequest
  {
    WalkRequest(NodeModules + [".pnpm"], Join(base, [".pnpm"]))
  }

  /** The re-rooted walk of `.pnpm/<pkg@ver>/node_modules/<alias>`, placed under `<base>/<alias>`. */
  function AliasRequest(base: Location, packageAtVersion: string, alias: string): WalkRequest
  {
    WalkRequest(NodeModules + [".pnpm"] + PathOf(packageAtVersion) + ["node_modules"] + PathOf(alias),
                Join(base, PathOf(alias)))
  }

  /** One walk per alias of every hoisted package, in key order. */
  function HoistedRequests(base: Location, hs: seq<HoistEntry>): seq<WalkRequest>
  {
    if hs == [] then []
    else
      seq(|hs[0].aliases|, j requires 0 <= j < |hs[0].aliases| => AliasRequest(base, hs[0].packageAtVersion, hs[0].aliases[j]))
      + HoistedRequests(base, hs[1..])
  }

  /** `alias` is listed under the key `packageAtVersion` of the hoisting map. */
  predicate Hoisted(hs: seq<HoistEntry>, packageAtVersion: string, alias: string)
  {
    exists i :: 0 <= i < |hs| && hs[i].packageAtVersion == packageAtVersion && alias in hs[i].aliases
  }

  /** The total number of hoisted aliases. */
  function AliasCount(hs: seq<HoistEntry>): nat
  {
    if hs == [] then 0 else |hs[0].aliases| + AliasCount(hs[1..])
  }

  /** The pnpm plan: the store walk first, then the hoisted walks; no hoisting key means the store walk only. */
  function PnpmPlan(base: Location, hoisted: Option<seq<HoistEntry>>): (plan: seq<WalkRequest>)
    ensures |plan| == 1 + AliasCount(hoisted.GetOr([]))
    ensures plan[0] == StoreRequest(base)
    ensures forall pv, a :: Hoisted(hoisted.GetOr([]), pv, a) ==> AliasRequest(base, pv, a) in plan[1..]
  {
    HoistedRequestsExactly(base, hoisted.GetOr([]));
    [StoreRequest(base)] + HoistedRequests(base, hoisted.GetOr([]))
  }

  /** The npm and yarn plan: one walk of `node_modules` under the archive path. */
  function FlatPlan(base: Location): seq<WalkRequest>
  {
    [WalkRequest(NodeModules, base)]
  }

  /**
    Every hoisted `(pkg@ver, alias)` pair gets its re-rooted walk, there is
    one walk per pair and no other kind of walk.
   */
  lemma {:induction false} HoistedRequestsExactly(base: Location, hs: seq<HoistEntry>)
    ensures |HoistedRequests(base, hs)| == AliasCount(hs)
    ensures forall pv, a :: Hoisted(hs, pv, a) ==> AliasRequest(base, pv, a) in HoistedRequests(base, hs)
    ensures forall w :: w in HoistedRequests(base, hs) ==>
              exists pv, a :: Hoisted(hs, pv, a) && w == AliasRequest(base, pv, a)
  {
    if hs != [] {
      var head := seq(|hs[0].aliases|, j requires 0 <= j < |hs[0].aliases| => AliasRequest(base, hs[0].packageAtVersion, hs[0].aliases[j]));
      HoistedRequestsExactly(base, hs[1..]);
      forall pv, a | Hoisted(hs, pv, a)
        ensures AliasRequest(base, pv, a) in HoistedRequests(base, hs)
      {
        var i :| 0 <= i < |hs| && hs[i].packageAtVersion == pv && a in hs[i].aliases;
        if i == 0 {
          var j :| 0 <= j < |hs[0].aliases| && hs[0].aliases[j] == a;
          assert head[j] == AliasRequest(base, pv, a);
        } else {
          assert hs[1..][i - 1] == hs[i];
          assert Hoisted(hs[1..], pv, a);
        }
      }
      forall w | w in HoistedRequests(base, hs)
        ensures exists pv, a :: Hoisted(hs, pv, a) && w == AliasRequest(base, pv, a)
      {
        if w in head {
          var j :| 0 <= j < |head| && head[j] == w;
          assert Hoisted(hs, hs[0].packageAtVersion, hs[0].aliases[j]);
        } else {
          var pv, a :| Hoisted(hs[1..], pv, a) && w == AliasRequest(base, pv, a);
          var i :| 0 <= i < |hs[1..]| && hs[1..][i].packageAtVersion == pv && a in hs[1..][i].aliases;
          assert hs[i + 1] == hs[1..][i];
          assert Hoisted(hs, pv, a);
        }
      }
    }
  }

  // ---------------------------------------------------------------------------
  // Running the walks

  /** What the generator produced: the entries yielded in order, then the error that ended it, if any. */
  datatype Stream = Stream(entries: seq<Entry>, error: Option<PackageError>)

  function WalkOptions(w: WalkRequest, ignore: Option<seq<Pattern>>): FolderOptions
  {
    FolderOptions(Some(w.archivePath), ignore, w.source)
  }

  /** Walk `k` of the plan is the first whose source cannot be listed. */
  predicate FirstFailure(lib: IgnoreLib, outDir: Node, ignore: Option<seq<Pattern>>, plan: seq<WalkRequest>, k: int)
  {
    && 0 <= k < |plan|
    && FolderEntries(lib, outDir, WalkOptions(plan[k], ignore)).Failure?
    && forall j :: 0 <= j < k ==> FolderEntries(lib, outDir, WalkOptions(plan[j], ignore)).Success?
  }

  /**
    `yield*` of each walk in turn; the first walk whose source cannot be
    listed ends the stream, and it is the one the error names.
   */
  function RunWalks(lib: IgnoreLib, outDir: Node, ignore: Option<seq<Pattern>>, plan: seq<WalkRequest>): (s: Stream)
    ensures s.error.Some? ==> exists k :: FirstFailure(lib, outDir, ignore, plan, k) && s.error == Some(CannotListDirectory(plan[k].source))
  {
    if plan == [] then Stream([], None)
    else
      match FolderEntries(lib, outDir, WalkOptions(plan[0], ignore))
      case Failure(e) => Stream([], Some(CannotListDirectory(e.source)))
      case Success(es) =>
        var rest := RunWalks(lib, outDir, ignore, plan[1..]);
        if rest.error.Some? then
          var k :| FirstFailure(lib, outDir, ignore, plan[1..], k) && rest.error == Some(CannotListDirectory(plan[1..][k].source));
          assert forall j :: 1 <= j <= k + 1 ==> plan[j] == plan[1..][j - 1];
          assert FirstFailure(lib, outDir, ignore, plan, k + 1);
          Stream(es + rest.entries, rest.error)
        else
          Stream(es + rest.entries, rest.error)
  }

  /**
    Entries yielded before a failure stay yielded: when the stream ends with
    an error, every entry of every walk before the failing one is in it.
   */
  lemma {:induction false} RunWalksKeepsEarlierWalks(lib: IgnoreLib, outDir: Node, ignore: Option<seq<Pattern>>, plan: seq<WalkRequest>,
                                                     k: nat, e: Entry)
    requires k < |plan|
    requires forall j :: 0 <= j <= k ==> FolderEntries(lib, outDir, WalkOptions(plan[j], ignore)).Success?
    requires e in FolderEntries(lib, outDir, WalkOptions(plan[k], ignore)).value
    ensures e in RunWalks(lib, outDir, ignore, plan).entries
  {
    if k > 0 {
      assert forall j :: 0 <= j <= k - 1 ==> plan[1..][j] == plan[j + 1];
      RunWalksKeepsEarlierWalks(lib, outDir, ignore, plan[1..], k - 1, e);
    }
  }

  /**
    A stream that ended without error ran every walk of the plan to the end,
    and every entry of every walk is in it.
   */
  lemma {:induction false} RunWalksContains(lib: IgnoreLib, outDir: Node, ignore: Option<seq<Pattern>>, plan: seq<WalkRequest>, k: nat, e: Entry)
    requires k < |plan|
    requires RunWalks(lib, outDir, ignore, plan).error.None?
    ensures FolderEntries(lib, outDir, WalkOptions(plan[k], ignore)).Success?
    ensures e in FolderEntries(lib, outDir, WalkOptions(plan[k], ignore)).value ==> e in RunWalks(lib, outDir, ignore, plan).entries
  {
    if k > 0 {
      assert plan[1..][k - 1] == plan[k];
      RunWalksContains(lib, outDir, ignore, plan[1..], k - 1, e);
    }
  }

  /** Every entry of a stream comes from one of the plan's walks, which succeeded. */
  lemma {:induction false} RunWalksFrom(lib: IgnoreLib, outDir: Node, ignore: Option<seq<Pattern>>, plan: seq<WalkRequest>, e: Entry)
    returns (k: nat)
    requires e in RunWalks(lib, outDir, ignore, plan).entries
    ensures k < |plan|
    ensures FolderEntries(lib, outDir, WalkOptions(plan[k], ignore)).Success?
    ensures e in FolderEntries(lib, outDir, WalkOptions(plan[k], ignore)).value
    ensures forall j :: 0 <= j <= k ==> FolderEntries(lib, outDir, WalkOptions(plan[j], ignore)).Success?
  {
    var first := FolderEntries(lib, outDir, WalkOptions(plan[0], ignore));
    if e in first.value {
      k := 0;
    } else {
      var k' := RunWalksFrom(lib, outDir, ignore, plan[1..], e);
      assert forall j :: 0 <= j <= k' ==> plan[1..][j] == plan[j + 1];
      k := k' + 1;
    }
  }

  // ---------------------------------------------------------------------------
  // getPackageEntries

  /**
    `getPackageEntries` with the outside world as parameters: the parsed
    manifest, the install's exit code (None for a signal), the scratch
    directory after the install, and the parsed `.modules.yaml` (None when it
    cannot be read).
   */
  function PackageEntries(lib: IgnoreLib, opts: PackageOptions, manifest: Option<Manifest>, exitCode: Option<int>,
                          outDir: Node, modules: Option<ModulesState>): (s: Stream)
    ensures s.entries != [] ==> PrepareInstall(opts, manifest).Success? && exitCode == Some(0)
    ensures s.error.None? ==> PrepareInstall(opts, manifest).Success? && exitCode == Some(0)
                              && (PrepareInstall(opts, manifest).value.kind == Pnpm ==> modules.Some?)
  {
    match PrepareInstall(opts, manifest)
    case Failure(e) => Stream([], Some(e))
    case Success(plan) =>
      match ExitCheck(exitCode)
      case Some(e) => Stream([], Some(e))
      case None =>
        var base := opts.archivePath.GetOr(DefaultPackageBase);
        if plan.kind == Pnpm then
          match modules
          case None => Stream([], Some(ModulesStateUnreadable))
          case Some(state) => RunWalks(lib, outDir, opts.ignorePaths, PnpmPlan(base, state.hoistedDependencies))
        else
          RunWalks(lib, outDir, opts.ignorePaths, FlatPlan(base))
  }

  /**
    Everything decided before the install fails without yielding, and the
    outcome does not depend on the install at all: an unknown lockfile name
    is reported even when the manifest cannot be read, and a missing
    dependency names the first requested name with no version.
   */
  lemma ConfigurationErrorsPrecedeInstall(lib: IgnoreLib, opts: PackageOptions, manifest: Option<Manifest>,
                                          code1: Option<int>, dir1: Node, mods1: Option<ModulesState>,
                                          code2: Option<int>, dir2: Node, mods2: Option<ModulesState>)
    requires PrepareInstall(opts, manifest).Failure?
    ensures PackageEntries(lib, opts, manifest, code1, dir1, mods1) == PackageEntries(lib, opts, manifest, code2, dir2, mods2)
    ensures PackageEntries(lib, opts, manifest, code1, dir1, mods1).entries == []
    ensures var err := PackageEntries(lib, opts, manifest, code1, dir1, mods1).error;
            && err.Some?
            && (LockKindOf(Basename(opts.packageLockPath)).None? ==> err.value == UnknownLockfile(opts.packageLockPath))
            && (LockKindOf(Basename(opts.packageLockPath)).Some? && manifest.Some? ==>
                  FirstMissing(manifest.value, opts.packageNames, err.value))
  {
  }

  /** After a successful preparation, exit code 0 proceeds to enumeration and any other outcome fails with that code. */
  lemma NonZeroExitFails(lib: IgnoreLib, opts: PackageOptions, manifest: Option<Manifest>, code: Option<int>,
                         outDir: Node, modules: Option<ModulesState>)
    requires PrepareInstall(opts, manifest).Success?
    ensures code != Some(0) ==> PackageEntries(lib, opts, manifest, code, outDir, modules) == Stream([], Some(InstallFailed(code)))
    ensures code == Some(0) ==> PackageEntries(lib, opts, manifest, code, outDir, modules).error != Some(InstallFailed(code))
  {
  }

  /** For npm and yarn the stream is exactly the walk of `node_modules` under the archive path (default `node_modules`). */
  lemma FlatLayoutIsOneWalk(lib: IgnoreLib, opts: PackageOptions, manifest: Option<Manifest>, outDir: Node, modules: Option<ModulesState>)
    requires PrepareInstall(opts, manifest).Success?
    requires PrepareInstall(opts, manifest).value.kind != Pnpm
    ensures var walk := FolderEntries(lib, outDir, FolderOptions(Some(opts.archivePath.GetOr(DefaultPackageBase)), opts.ignorePaths, NodeModules));
            PackageEntries(lib, opts, manifest, Some(0), outDir, modules)
            == if walk.Success? then Stream(walk.value, None) else Stream([], Some(CannotListDirectory(NodeModules)))
  {
    var base := opts.archivePath.GetOr(DefaultPackageBase);
    var plan := FlatPlan(base);
    assert plan[1..] == [];
    assert RunWalks(lib, outDir, opts.ignorePaths, plan[1..]) == Stream([], None);
    var walk := FolderEntries(lib, outDir, WalkOptions(plan[0], opts.ignorePaths));
    if walk.Success? {
      assert walk.value + [] == walk.value;
    }
  }

  /**
    For pnpm, the stream begins with the whole store walked under
    `<base>/.pnpm`, and a `.modules.yaml` without `hoistedDependencies` yields
    that walk alone.
   */
  lemma PnpmStartsWithStore(lib: IgnoreLib, opts: PackageOptions, manifest: Option<Manifest>, outDir: Node, state: ModulesState)
    requires PrepareInstall(opts, manifest).Success?
    requires PrepareInstall(opts, manifest).value.kind == Pnpm
    ensures var base := opts.archivePath.GetOr(DefaultPackageBase);
            var store := FolderEntries(lib, outDir, FolderOptions(Some(Join(base, [".pnpm"])), opts.ignorePaths, NodeModules + [".pnpm"]));
            var s := PackageEntries(lib, opts, manifest, Some(0), outDir, Some(state));
            && (store.Failure? ==> s == Stream([], Some(CannotListDirectory(NodeModules + [".pnpm"]))))
            && (store.Success? ==> s.entries[..|store.value|] == store.value)
            && (store.Success? && state.hoistedDependencies.None? ==> s == Stream(store.value, None))
  {
    var base := opts.archivePath.GetOr(DefaultPackageBase);
    var plan := PnpmPlan(base, state.hoistedDependencies);
    var store := FolderEntries(lib, outDir, WalkOptions(plan[0], opts.ignorePaths));
    if store.Success? && state.hoistedDependencies.None? {
      assert plan[1..] == [];
      assert RunWalks(lib, outDir, opts.ignorePaths, plan[1..]) == Stream([], None);
      assert store.value + [] == store.value;
    }
  }

  /** After a successful pnpm install the stream is the run of the pnpm plan. */
  lemma PnpmStreamIsPlanRun(lib: IgnoreLib, opts: PackageOptions, manifest: Option<Manifest>, outDir: Node, state: ModulesState)
    requires PrepareInstall(opts, manifest).Success?
    requires PrepareInstall(opts, manifest).value.kind == Pnpm
    ensures PackageEntries(lib, opts, manifest, Some(0), outDir, Some(state))
            == RunWalks(lib, outDir, opts.ignorePaths, PnpmPlan(opts.archivePath.GetOr(DefaultPackageBase), state.hoistedDependencies))
  {
  }

  /**
    With nothing ignored, a stream that ended without error holds, for every
    walk of its plan, each regular file below that walk's source at the
    walk's archive path joined with the file's relative path.
   */
  lemma PlannedWalkYieldsFile(lib: IgnoreLib, outDir: Node, ignore: Option<seq<Pattern>>, plan: seq<WalkRequest>,
                              w: WalkRequest, rel: Path, id: FileId)
    requires WellFormed(outDir)
    requires forall query :: !lib(ignore.GetOr([]), query)
    requires w in plan
    requires |rel| >= 1 && Find(outDir, w.source + rel) == Some(File(id))
    requires RunWalks(lib, outDir, ignore, plan).error.None?
    ensures Entry(Join(w.archivePath, rel), id) in RunWalks(lib, outDir, ignore, plan).entries
  {
    var k :| 0 <= k < |plan| && plan[k] == w;
    var e := Entry(Join(w.archivePath, rel), id);
    RunWalksContains(lib, outDir, ignore, plan, k, e);
    WalkWithoutIgnoresYieldsEveryFile(lib, outDir, WalkOptions(w, ignore), rel, id);
  }

  /** The store path and the hoisted path of a file inside a hoisted package, as the two walks compute them. */
  lemma HoistedPaths(base: Location, pv: string, alias: string, rel: Path)
    ensures var storeRel := PathOf(pv) + ["node_modules"] + PathOf(alias) + rel;
            && StoreRequest(base).source + storeRel == NodeModules + [".pnpm"] + PathOf(pv) + ["node_modules"] + PathOf(alias) + rel
            && Join(StoreRequest(base).archivePath, storeRel) == Join(base, [".pnpm"] + PathOf(pv) + ["node_modules"] + PathOf(alias) + rel)
            && AliasRequest(base, pv, alias).source + rel == NodeModules + [".pnpm"] + PathOf(pv) + ["node_modules"] + PathOf(alias) + rel
            && Join(AliasRequest(base, pv, alias).archivePath, rel) == Join(base, PathOf(alias) + rel)
  {
    StoreAndAliasSegments(base, PathOf(pv), PathOf(alias), rel);
  }

  /** The segment arithmetic behind HoistedPaths, for any package and alias paths. */
  lemma StoreAndAliasSegments(base: Location, pv: Path, alias: Path, rel: Path)
    ensures Join(Join(base, [".pnpm"]), pv + ["node_modules"] + alias + rel) == Join(base, [".pnpm"] + pv + ["node_modules"] + alias + rel)
    ensures NodeModules + [".pnpm"] + (pv + ["node_modules"] + alias + rel) == NodeModules + [".pnpm"] + pv + ["node_modules"] + alias + rel
    ensures Join(Join(base, alias), rel) == Join(base, alias + rel)
  {
  }

  /** The pnpm plan run: with nothing ignored, a file of a hoisted package is yielded under the store and under its alias. */
  lemma PnpmPlanYieldsTwice(lib: IgnoreLib, outDir: Node, ignore: Option<seq<Pattern>>, base: Location, hs: seq<HoistEntry>,
                            pv: string, alias: string, rel: Path, id: FileId)
    requires WellFormed(outDir)
    requires forall query :: !lib(ignore.GetOr([]), query)
    requires Hoisted(hs, pv, alias)
    requires |rel| >= 1
    requires Find(outDir, NodeModules + [".pnpm"] + PathOf(pv) + ["node_modules"] + PathOf(alias) + rel) == Some(File(id))
    requires RunWalks(lib, outDir, ignore, PnpmPlan(base, Some(hs))).error.None?
    ensures var s := RunWalks(lib, outDir, ignore, PnpmPlan(base, Some(hs)));
            && Entry(Join(base, [".pnpm"] + PathOf(pv) + ["node_modules"] + PathOf(alias) + rel), id) in s.entries
            && Entry(Join(base, PathOf(alias) + rel), id) in s.entries
  {
    var plan := PnpmPlan(base, Some(hs));
    HoistedPaths(base, pv, alias, rel);
    PlannedWalkYieldsFile(lib, outDir, ignore, plan, StoreRequest(base), PathOf(pv) + ["node_modules"] + PathOf(alias) + rel, id);
    HoistedRequestsExactly(base, hs);
    assert AliasRequest(base, pv, alias) in plan;
    PlannedWalkYieldsFile(lib, outDir, ignore, plan, AliasRequest(base, pv, alias), rel, id);
  }

  /**
    The duplication pnpm needs: with nothing ignored, a file inside a hoisted
    package appears both at its store path `<base>/.pnpm/<pkg@ver>/node_modules/<alias>/…`
    and at its hoisted path `<base>/<alias>/…`.
   */
  lemma HoistedFileAppearsTwice(lib: IgnoreLib, opts: PackageOptions, manifest: Option<Manifest>, outDir: Node,
                                state: ModulesState, pv: string, alias: string, rel: Path, id: FileId)
    requires WellFormed(outDir)
    requires PrepareInstall(opts, manifest).Success?
    requires PrepareInstall(opts, manifest).value.kind == Pnpm
    requires forall query :: !lib(opts.ignorePaths.GetOr([]), query)
    requires state.hoistedDependencies.Some? && Hoisted(state.hoistedDependencies.value, pv, alias)
    requires |rel| >= 1
    requires Find(outDir, NodeModules + [".pnpm"] + PathOf(pv) + ["node_modules"] + PathOf(alias) + rel) == Some(File(id))
    requires PackageEntries(lib, opts, manifest, Some(0), outDir, Some(state)).error.None?
    ensures var base := opts.archivePath.GetOr(DefaultPackageBase);
            var s := PackageEntries(lib, opts, manifest, Some(0), outDir, Some(state));
            && Entry(Join(base, [".pnpm"] + PathOf(pv) + ["node_modules"] + PathOf(alias) + rel), id) in s.entries
            && Entry(Join(base, PathOf(alias) + rel), id) in s.entries
  {
    PnpmStreamIsPlanRun(lib, opts, manifest, outDir, state);
    PnpmPlanYieldsTwice(lib, outDir, opts.ignorePaths, opts.archivePath.GetOr(DefaultPackageBase),
                        state.hoistedDependencies.value, pv, alias, rel, id);
  }
}

=== FILE: paths.dfy ===
/**
  Paths as sequences of segments. Host path normalisation (`path.join`,
  `path.relative`, `path.resolve`) is replaced by segment arithmetic, so
  joining two paths is concatenation.
 */
module Paths {
  import opened Strings

  /** One path component: a directory entry name. */
  type Name = string

  /** A relative path: its components in order. */
  type Path = seq<Name>

  /** A name as a directory listing holds it: non-empty and without a separator. */
  predicate ValidName(s: Name) {
    s != [] && '/' !in s
  }

  predicate ValidPath(p: Path) {
    forall i :: 0 <= i < |p| ==> ValidName(p[i])
  }

  /**
    A location inside the archive. `absolute` records whether the archive base
    path started at `/`; `segments` are the components below it.
   */
  datatype Location = Location(absolute: bool, segments: Path)

  /** The default base of a folder walk: the archive root `/`. */
  const ArchiveRoot := Location(true, [])

  /** `join(base, rel)` for an archive location. */
  function Join(base: Location, rel: Path): (r: Location)
    ensures r.absolute == base.absolute
    ensures |r.segments| == |base.segments| + |rel|
    ensures r.segments[..|base.segments|] == base.segments
    ensures r.segments[|base.segments|..] == rel
  {
    Location(base.absolute, base.segments + rel)
  }

  /** The slash-separated text of a relative path, as `path.relative` returns it. */
  function Text(p: Path): string
  {
    JoinWith(p, '/')
  }

  /**
    The string the walker hands to the ignore matcher for a child at relative
    path `p`: a directory's path carries a trailing `/`, a file's does not.
   */
  function Query(p: Path, isDir: bool): (q: string)
    ensures isDir ==> |q| >= 1 && q[|q| - 1] == '/'
    ensures !isDir && |p| >= 1 && ValidPath(p) ==> |q| >= 1 && q[|q| - 1] != '/'
  {
    if isDir then Text(p) + "/"
    else if |p| >= 1 && ValidPath(p) then JoinEndsWithLastPart(p, '/'); Text(p)
    else Text(p)
  }

  /**
    The query is the relative path's text: without the trailing `/` of a
    directory, it splits back into the path.
   */
  lemma QueryIsText(p: Path, isDir: bool)
    requires |p| >= 1 && ValidPath(p)
    ensures var q := Query(p, isDir);
            SplitOn(if isDir then q[..|q| - 1] else q, '/') == p
  {
    TextRoundTrip(p);
    if isDir {
      assert (Text(p) + "/")[..|Text(p)|] == Text(p);
    }
  }

  /** The last component of a path, as `path.basename` returns it. */
  function Basename(p: Path): Name
  {
    if p == [] then "" else p[|p| - 1]
  }

  /**
    The segments of a path written as text: `path.join` splits on `/` and
    drops empty components, so `@scope/pkg` is two segments and `/a` is one.
   */
  function PathOf(s: string): (p: Path)
    ensures ValidPath(p)
    ensures ValidPath(SplitOn(s, '/')) ==> p == SplitOn(s, '/')
    ensures ValidName(s) ==> p == [s]
  {
    NonEmpty(SplitOn(s, '/'))
  }

  function NonEmpty(parts: seq<string>): (p: seq<string>)
    requires forall i :: 0 <= i < |parts| ==> '/' !in parts[i]
    ensures ValidPath(p)
    ensures ValidPath(parts) ==> p == parts
  {
    if parts == [] then []
    else if parts[0] == [] then NonEmpty(parts[1..])
    else [parts[0]] + NonEmpty(parts[1..])
  }

  /** Reading the text of a path back gives the path itself. */
  lemma TextRoundTrip(p: Path)
    requires |p| >= 1 && ValidPath(p)
    ensures SplitOn(Text(p), '/') == p
  {
    SplitJoin(p, '/');
  }

  /**
    The query determines the child: the matcher can tell a directory `a/`
    from a file `a`, and two different children never share a query.
   */
  lemma QueryDeterminesChild(p: Path, d: bool, q: Path, e: bool)
    requires |p| >= 1 && ValidPath(p)
    requires |q| >= 1 && ValidPath(q)
    ensures Query(p, d) == Query(q, e) <==> p == q && d == e
  {
    if Query(p, d) == Query(q, e) {
      JoinEndsWithLastPart(p, '/');
      JoinEndsWithLastPart(q, '/');
      var s := Query(p, d);
      if d {
        assert Text(p) == s[..|s| - 1] == Text(q);
      }
      TextRoundTrip(p);
      TextRoundTrip(q);
    }
  }
}

=== FILE: runner.dfy ===
/**
  `getPackageEntries` as a generator: each planned walk is run with the
  work-stack walker and its entries are yielded in turn (`yield*`). Proven to
  end with the same error as the pure definition in module Packages and to
  yield the same entries, each as often.
 */
module Runner {
  import opened Wrappers
  import opened FileTree
  import opened Folder
  import opened Walker
  import opened Packages

  /** Running the walks from position `i` is walk `i` followed by the walks from `i + 1`. */
  lemma RunWalksStep(lib: IgnoreLib, outDir: Node, ignore: Option<seq<Pattern>>, plan: seq<WalkRequest>, i: nat)
    requires i < |plan|
    ensures var w := FolderEntries(lib, outDir, WalkOptions(plan[i], ignore));
            var rest := RunWalks(lib, outDir, ignore, plan[i + 1..]);
            && (w.Failure? ==> RunWalks(lib, outDir, ignore, plan[i..]) == Stream([], Some(CannotListDirectory(plan[i].source))))
            && (w.Success? ==> RunWalks(lib, outDir, ignore, plan[i..]) == Stream(w.value + rest.entries, rest.error))
  {
    assert plan[i..][0] == plan[i];
    assert plan[i..][1..] == plan[i + 1..];
  }

  /** The walks of `plan` in order, stopping at the first source that cannot be listed. */
  method RunPlan(lib: IgnoreLib, outDir: Node, ignore: Option<seq<Pattern>>, plan: seq<WalkRequest>) returns (s: Stream)
    ensures s.error == RunWalks(lib, outDir, ignore, plan).error
    ensures multiset(s.entries) == multiset(RunWalks(lib, outDir, ignore, plan).entries)
  {
    var yielded: seq<Entry> := [];
    var i := 0;
    while i < |plan|
      invariant 0 <= i <= |plan|
      invariant RunWalks(lib, outDir, ignore, plan[i..]).error == RunWalks(lib, outDir, ignore, plan).error
      invariant multiset(yielded) + multiset(RunWalks(lib, outDir, ignore, plan[i..]).entries)
                == multiset(RunWalks(lib, outDir, ignore, plan).entries)
    {
      RunWalksStep(lib, outDir, ignore, plan, i);
      var walk := GetFolderEntries(lib, outDir, WalkOptions(plan[i], ignore));
      if walk.Failure? {
        return Stream(yielded, Some(CannotListDirectory(walk.error.source)));
      }
      yielded := yielded + walk.value;
      i := i + 1;
    }
    return Stream(yielded, None);
  }

  /**
    `getPackageEntries`: preparation, the exit-code gate, then the layout's
    walks. Same error as PackageEntries, same entries in the walker's order.
   */
  method GetPackageEntries(lib: IgnoreLib, opts: PackageOptions, manifest: Option<Manifest>, exitCode: Option<int>,
                           outDir: Node, modules: Option<ModulesState>) returns (s: Stream)
    ensures s.error == PackageEntries(lib, opts, manifest, exitCode, outDir, modules).error
    ensures multiset(s.entries) == multiset(PackageEntries(lib, opts, manifest, exitCode, outDir, modules).entries)
  {
    var prepared := PrepareInstall(opts, manifest);
    if prepared.Failure? {
      return Stream([], Some(prepared.error));
    }
    var failed := ExitCheck(exitCode);
    if failed.Some? {
      return Stream([], failed);
    }
    var base := opts.archivePath.GetOr(DefaultPackageBase);
    if prepared.value.kind == Pnpm {
      if modules.None? {
        return Stream([], Some(ModulesStateUnreadable));
      }
      s := RunPlan(lib, outDir, opts.ignorePaths, PnpmPlan(base, modules.value.hoistedDependencies));
    } else {
      s := RunPlan(lib, outDir, opts.ignorePaths, FlatPlan(base));
    }
  }
}

=== FILE: strings.dfy ===
/**
  Joining and splitting strings on a separator character: the text form of
  relative paths (`a/b/c`) and of `.npmrc` content (`arch=x\nplatform=y`).
 */
module Strings {

  /** `parts` joined by `sep`, as JavaScript's `Array.prototype.join` does. */
  function JoinWith(parts: seq<string>, sep: char): string
  {
    if |parts| == 0 then ""
    else if |parts| == 1 then parts[0]
    else parts[0] + [sep] + JoinWith(parts[1..], sep)
  }

  /** The position of the first occurrence of `c` in `s`. */
  function FirstIndexOf(s: string, c: char): (i: nat)
    requires c in s
    ensures i < |s| && s[i] == c
    ensures c !in s[..i]
  {
    if s[0] == c then 0
    else
      var j := FirstIndexOf(s[1..], c);
      assert s[..1 + j] == [s[0]] + s[1..][..j];
      1 + j
  }

  /** `s` cut at every `sep`, as JavaScript's `String.prototype.split` does. */
  function SplitOn(s: string, sep: char): (parts: seq<string>)
    ensures |parts| >= 1
    ensures forall i :: 0 <= i < |parts| ==> sep !in parts[i]
    decreases |s|
  {
    if sep in s then
      var i := FirstIndexOf(s, sep);
      [s[..i]] + SplitOn(s[i + 1..], sep)
    else
      [s]
  }

  /** The first separator of `a + [sep] + t` is the one after `a` when `a` holds none. */
  lemma FirstIndexAfterPart(a: string, sep: char, t: string)
    requires sep !in a
    ensures sep in a + [sep] + t
    ensures FirstIndexOf(a + [sep] + t, sep) == |a|
  {
    var s := a + [sep] + t;
    assert s[|a|] == sep;
    assert s[..|a|] == a;
  }

  /** Splitting text that starts with a separator-free part peels that part off. */
  lemma SplitAfterPart(a: string, sep: char, t: string)
    requires sep !in a
    ensures SplitOn(a + [sep] + t, sep) == [a] + SplitOn(t, sep)
  {
    var s := a + [sep] + t;
    FirstIndexAfterPart(a, sep, t);
    assert s[..|a|] == a;
    assert s[|a| + 1..] == t;
  }

  /** Splitting undoes joining, provided no part contains the separator. */
  lemma {:induction false} SplitJoin(parts: seq<string>, sep: char)
    requires |parts| >= 1
    requires forall i :: 0 <= i < |parts| ==> sep !in parts[i]
    ensures SplitOn(JoinWith(parts, sep), sep) == parts
  {
    if |parts| > 1 {
      assert sep !in parts[0];
      SplitAfterPart(parts[0], sep, JoinWith(parts[1..], sep));
      SplitJoin(parts[1..], sep);
      assert parts == [parts[0]] + parts[1..];
    }
  }

  /** Joining non-empty parts never yields text that ends with the separator. */
  lemma {:induction false} JoinEndsWithLastPart(parts: seq<string>, sep: char)
    requires |parts| >= 1
    requires parts[|parts| - 1] != [] && sep !in parts[|parts| - 1]
    ensures |JoinWith(parts, sep)| >= 1
    ensures JoinWith(parts, sep)[|JoinWith(parts, sep)| - 1] != sep
  {
    if |parts| > 1 {
      JoinEndsWithLastPart(parts[1..], sep);
    } else {
      var last := parts[0];
      assert last[|last| - 1] in last;
    }
  }
}

=== FILE: walker.dfy ===
/**
  The work-stack algorithm of `getFolderEntries`: an explicit stack of
  directories, each popped, listed, and its children classified, tested
  against the matcher, pushed or yielded. Proven to yield the same multiset of
  entries as the reference definition in module Folder.
 */
module Walker {
  import opened Wrappers
  import opened Paths
  import opened FileTree
  import opened Folder

  /**
    A directory on the work stack: its path relative to the source and its
    listing. The tree is immutable, so listing at push time or at pop time
    reads the same children.
   */
  datatype Frame = Frame(rel: Path, children: seq<Child>)

  /** The entries the frames on the stack still owe, in the reference definition's terms. */
  ghost function Pending(lib: IgnoreLib, pats: seq<Pattern>, base: Location, work: seq<Frame>): multiset<Entry>
  {
    if work == [] then multiset{}
    else
      var top := work[|work| - 1];
      Pending(lib, pats, base, work[..|work| - 1]) + multiset(ListEntries(lib, pats, base, top.children, top.rel))
  }

  /** Termination measure: the nodes not yet listed below the frames on the stack. */
  ghost function Weight(work: seq<Frame>): nat
  {
    if work == [] then 0
    else Weight(work[..|work| - 1]) + 1 + SizeOfChildren(work[|work| - 1].children)
  }

  lemma PushFrame(lib: IgnoreLib, pats: seq<Pattern>, base: Location, work: seq<Frame>, f: Frame)
    ensures Pending(lib, pats, base, work + [f]) == Pending(lib, pats, base, work) + multiset(ListEntries(lib, pats, base, f.children, f.rel))
    ensures Weight(work + [f]) == Weight(work) + 1 + SizeOfChildren(f.children)
  {
    assert (work + [f])[..|work|] == work;
  }

  /** Splitting the first child off the rest of a listing. */
  lemma ListStep(lib: IgnoreLib, pats: seq<Pattern>, base: Location, cs: seq<Child>, i: nat, rel: Path)
    requires i < |cs|
    ensures ListEntries(lib, pats, base, cs[i..], rel)
            == NodeEntries(lib, pats, base, cs[i].node, rel + [cs[i].name]) + ListEntries(lib, pats, base, cs[i + 1..], rel)
    ensures SizeOfChildren(cs[i..]) == Size(cs[i].node) + SizeOfChildren(cs[i + 1..])
  {
    assert cs[i..][0] == cs[i];
    assert cs[i..][1..] == cs[i + 1..];
  }

  /**
    One child of the listing being processed: classify it (links followed),
    query the matcher with its relative path, and push it when it is a kept
    directory or yield it when it is a kept regular file. Together, stack and
    output then owe exactly the child's entries more than before.
   */
  method VisitChild(lib: IgnoreLib, pats: seq<Pattern>, base: Location, work: seq<Frame>, out: seq<Entry>, child: Node, rel: Path)
    returns (work': seq<Frame>, out': seq<Entry>)
    ensures multiset(out') + Pending(lib, pats, base, work')
            == multiset(out) + multiset(NodeEntries(lib, pats, base, child, rel)) + Pending(lib, pats, base, work)
    ensures Weight(work') <= Weight(work) + Size(child)
  {
    work', out' := work, out;
    var kind := KindOf(child);
    var isDir := kind == Directory;
    if !lib(pats, Query(rel, isDir)) {
      if isDir {
        var f := Frame(rel, Resolve(child).children);
        PushFrame(lib, pats, base, work, f);
        work' := work + [f];
      } else if kind == RegularFile {
        out' := out + [Entry(Join(base, rel), Resolve(child).id)];
      }
    }
  }

  /**
    One popped directory: its children visited in listing order. Stack and
    output then owe exactly the listing's entries more than before, and the
    stack grows by less than the listing's size.
   */
  method VisitListing(lib: IgnoreLib, pats: seq<Pattern>, base: Location, work: seq<Frame>, out: seq<Entry>, cs: seq<Child>, rel: Path)
    returns (work': seq<Frame>, out': seq<Entry>)
    ensures multiset(out') + Pending(lib, pats, base, work')
            == multiset(out) + multiset(ListEntries(lib, pats, base, cs, rel)) + Pending(lib, pats, base, work)
    ensures Weight(work') <= Weight(work) + SizeOfChildren(cs)
  {
    work', out' := work, out;
    var i := 0;
    while i < |cs|
      invariant 0 <= i <= |cs|
      invariant multiset(out') + Pending(lib, pats, base, work') + multiset(ListEntries(lib, pats, base, cs[i..], rel))
                == multiset(out) + multiset(ListEntries(lib, pats, base, cs, rel)) + Pending(lib, pats, base, work)
      invariant Weight(work') + SizeOfChildren(cs[i..]) <= Weight(work) + SizeOfChildren(cs)
    {
      ListStep(lib, pats, base, cs, i, rel);
      work', out' := VisitChild(lib, pats, base, work', out', cs[i].node, rel + [cs[i].name]);
      i := i + 1;
    }
    assert cs[i..] == [];
  }

  /**
    The work-stack loop over a listable source with listing `cs`: the output
    holds exactly the listing's entries, each as often as the reference
    definition has it, in stack order.
   */
  method WalkListing(lib: IgnoreLib, pats: seq<Pattern>, base: Location, cs: seq<Child>) returns (out: seq<Entry>)
    ensures multiset(out) == multiset(ListEntries(lib, pats, base, cs, []))
  {
    var work := [Frame([], cs)];
    PushFrame(lib, pats, base, [], Frame([], cs));
    out := [];
    while work != []
      invariant multiset(out) + Pending(lib, pats, base, work) == multiset(ListEntries(lib, pats, base, cs, []))
      decreases Weight(work)
    {
      var curr := work[|work| - 1];
      PushFrame(lib, pats, base, work[..|work| - 1], curr);
      assert work[..|work| - 1] + [curr] == work;
      work := work[..|work| - 1];
      work, out := VisitListing(lib, pats, base, work, out, curr.children, curr.rel);
    }
  }

  /** A value found at two positions occurs at least twice. */
  lemma CountTwice<T>(s: seq<T>, i: nat, j: nat)
    requires i < j < |s| && s[i] == s[j]
    ensures multiset(s)[s[i]] >= 2
  {
    assert s == s[..j] + s[j..];
    assert s[i] in s[..j];
    assert s[j..][0] == s[j];
  }

  /** A value occurring at least twice sits at two positions. */
  lemma {:induction false} TwoPositions<T>(s: seq<T>, x: T) returns (i: nat, j: nat)
    requires multiset(s)[x] >= 2
    ensures i < j < |s| && s[i] == x && s[j] == x
  {
    assert s == [s[0]] + s[1..];
    if s[0] == x {
      assert x in multiset(s[1..]);
      var k :| 0 <= k < |s[1..]| && s[1..][k] == x;
      i, j := 0, k + 1;
    } else {
      var i', j' := TwoPositions(s[1..], x);
      i, j := i' + 1, j' + 1;
    }
  }

  /** Reordering keeps archive paths distinct. */
  lemma DistinctPathsPermuted(a: seq<Entry>, b: seq<Entry>)
    requires multiset(a) == multiset(b) && DistinctPaths(b)
    ensures DistinctPaths(a)
  {
    forall i, j | 0 <= i < j < |a|
      ensures a[i].path != a[j].path
    {
      if a[i] == a[j] {
        CountTwice(a, i, j);
        var p, q := TwoPositions(b, a[i]);
      } else {
        assert a[i] in multiset(b) && a[j] in multiset(b);
        var p :| 0 <= p < |b| && b[p] == a[i];
        var q :| 0 <= q < |b| && b[q] == a[j];
        assert p != q;
      }
    }
  }

  /**
    `getFolderEntries`: the archive base defaults to `/`, an absent ignore list
    to the empty one, and a source that cannot be listed is an error. It fails
    exactly when the reference definition does and otherwise yields the same
    entries, each as often, in its own stack order.
   */
  method GetFolderEntries(lib: IgnoreLib, fs: Node, opts: FolderOptions) returns (r: Result<seq<Entry>, WalkError>)
    ensures r.Failure? <==> FolderEntries(lib, fs, opts).Failure?
    ensures r.Failure? ==> r == FolderEntries(lib, fs, opts)
    ensures r.Success? ==> multiset(r.value) == multiset(FolderEntries(lib, fs, opts).value)
    ensures r.Success? && WellFormed(fs) ==> DistinctPaths(r.value)
  {
    var base := BaseOf(opts);
    var pats := PatternsOf(opts);
    var root := Find(fs, opts.source);
    if !(root.Some? && root.value.Dir?) {
      return Failure(CannotList(opts.source));
    }
    var out := WalkListing(lib, pats, base, root.value.children);
    if WellFormed(fs) {
      FolderEntriesDistinct(lib, fs, opts);
      DistinctPathsPermuted(out, FolderEntries(lib, fs, opts).value);
    }
    return Success(out);
  }
}

=== FILE: wrappers.dfy ===
/** Failure-carrying datatypes shared by the model. */
module Wrappers {

  /** A value that may be absent: JavaScript's `undefined`/`null` for an optional option or key. */
  datatype Option<+T> = None | Some(value: T) {

    /** The carried value, or `default` when absent (JavaScript's `x || default` on objects). */
    function GetOr(default: T): T {
      match this
      case Some(v) => v
      case None => default
    }
  }

  /** The outcome of an operation that either produces a value or throws an error. */
  datatype Result<+R, +E> = Success(value: R) | Failure(error: E) {

    predicate IsFailure() {
      Failure?
    }

    function PropagateFailure<U>(): Result<U, E>
      requires Failure?
    {
      Failure(error)
    }

    function Extract(): R
      requires Success?
    {
      value
    }
  }
}
